=== FILE: README.md ===
# MedTools front-end core in Dafny

This project models the view-model logic of six MedTools Angular components.
MedTools is an online shop for medical products. The six components are:

- **Cart and checkout** (`carrito`): quantity guards, the checkout modal, the two purchase paths, card-brand detection and product image URLs. The two purchase paths are a saved payment method and a new card paid through Stripe.
- **Address editor** (`editdireccion`): state tables per country, the Mexican postal-code lookup, parsing a stored address string, and the required-field check before saving.
- **Admin product list** (`admin-productos`): filters, status statistics, product creation, the status toggle, deletion, reloading and category names.
- **Product editor** (`editar-producto`): loading the form, validating it, and the multipart update.
- **Assistant chat** (`chat-ia`): the welcome message, sending a question and handling the reply.
- **Profile page** (`perfil`): image-URL resolution, the display-name fallback chain, and loading and normalising purchases.

Each component is a module:

- `Cart`
- `AddressForm`
- `AdminProducts`
- `ProductEditor`
- `ChatAssistant`
- `Profile`

Three modules are shared:

- `JsValues` models optional JSON fields and JavaScript truthiness (`a || d`).
- `Text` models the string built-ins the components use: `trim`, `toLowerCase`, `includes`, `indexOf`, `split`, `join` and `replace`.
- `Assets` holds the back-end host and the placeholder images.

Every component state is an immutable record. Every event handler is a pure function from the state, and the answers to any calls the handler made, to the next state. Where a handler has outward effects, it returns them as values. Effects include:

- an HTTP request
- a Stripe call
- an `alert`
- a navigation
- a timer

The answer to each such call is an explicit input of the function that handles it. Missing or `null` JSON fields are `Option` values. JavaScript's `||` fallback is written with `StrOr`/`IntOr`: an empty string and `0` count as false.

Behaviours worth knowing, all proved below:

- **Card purchase.** When the final cart-clearing request fails, the order has already been recorded and the modal already closed. The card-error message is still set. The cart is cleared exactly when every payment step succeeded.
- **Saved-method purchase.** `confirmarCompra` has no guard against a second click while a purchase is in progress. Each call that passes the three checks starts another purchase timer.
- **Admin reload.** After a reload, the admin list shows every product, whatever the filter inputs hold.
- **Display name.** The fallback chain yields an empty name exactly when no name field is set and the email starts with `@`.

## Model

| member | source | states |
|---|---|---|
| Text.Trim | src/app/admin/admin-productos/editar-producto/editar-producto.component.ts:116 | `trim()` returns a contiguous slice of the input. Only whitespace is cut away, and neither end of the result is whitespace. |
| Text.BlankIffAllWhitespace | src/app/chat-ia/chat-ia.component.ts:100 | `!s.trim()` holds exactly when every character of `s` is whitespace. |
| Text.IndexOf | src/app/perfil/editdireccion/editdireccion.component.ts:285-286 | Finds the leftmost occurrence, and finds one exactly when the string contains the pattern. |
| Text.Split | src/app/perfil/editdireccion/editdireccion.component.ts:280 | The pieces joined back with the separator give the input. No piece contains the separator. There is more than one piece exactly when the separator occurs. |
| Text.SplitFirstPieces | src/app/perfil/editdireccion/editdireccion.component.ts:286 | The first piece is everything before the leftmost separator. The second piece starts right after it. |
| Text.ReplaceFirst | src/app/perfil/editdireccion/editdireccion.component.ts:302 | A string pattern replaces only its leftmost occurrence. Without an occurrence the string is unchanged. |
| Text.SplitAt | src/app/perfil/editdireccion/editdireccion.component.ts:280 | Splitting at the leftmost separator gives the text before it, followed by the pieces of the text after it. |
| Text.SplitJoinChar | src/app/perfil/editdireccion/editdireccion.component.ts:280 | Pieces without the separator character, joined with it and split again, come back unchanged. |
| Text.TrimUnique | src/app/perfil/editdireccion/editdireccion.component.ts:280 | A slice with only whitespace around it and non-whitespace at both ends is what `trim()` returns. |
| Cart.Increment | src/app/carrito/carrito.component.ts:187-205 | At or above the available stock, the only effect is the stock alert. Otherwise one update to quantity + 1 is sent. No update ever lowers the quantity. |
| Cart.Decrement | src/app/carrito/carrito.component.ts:207-224 | At quantity 1 or less, nothing happens. Otherwise the update is to quantity − 1, which is at least 1. |
| Cart.IncrementDecrementInverse | src/app/carrito/carrito.component.ts:187-224 | Inside the range both guards allow, one more unit then one less, or the reverse, gives the line back. |
| Cart.QuantityStaysInRange | src/app/carrito/carrito.component.ts:187-224 | Starting between 1 and the available stock, both guards keep the quantity in that range. |
| Cart.QuantityUpdated | src/app/carrito/carrito.component.ts:197-203 | The cart is reloaded exactly when the update succeeded. A failure gives only the quantity-update alert. |
| Cart.AvailableItems | src/app/carrito/carrito.component.ts:268 | Keeps only available items, and is non-empty exactly when some item is available. |
| Cart.ProceedToCheckout | src/app/carrito/carrito.component.ts:267-278 | The modal opens, and addresses and methods are requested, exactly when an available item exists. Otherwise the only effect is one alert. |
| Cart.AddressesLoaded | src/app/carrito/carrito.component.ts:280-297 | The list becomes the reply, or empty on error. The first address is preselected only when the reply is non-empty. Nothing else changes. |
| Cart.MethodsLoaded | src/app/carrito/carrito.component.ts:299-312 | The methods become the reply, or empty on error. Nothing else changes. |
| Cart.CloseCheckout | src/app/carrito/carrito.component.ts:314-324 | Hides the modal and clears both selections, the card form and its error. The card element is destroyed exactly when it was mounted. The cart and the loaded lists are kept. |
| Cart.SelectAddress | src/app/carrito/carrito.component.ts:326-328 | Only the selected address changes. |
| Cart.SelectMethod | src/app/carrito/carrito.component.ts:330-339 | Selects the method and hides the card form. The element is destroyed exactly when the form was open with a mounted element. Nothing else changes. |
| Cart.PayWithNewCard | src/app/carrito/carrito.component.ts:342-363 | Deselects the method, shows the card form and asks for the card element to be mounted. Nothing else changes. |
| Cart.CardElementMounted | src/app/carrito/carrito.component.ts:355-361 | On success the element is ready. On failure a non-empty load error is shown. |
| Cart.CancelCardForm | src/app/carrito/carrito.component.ts:435-442 | Hides the form and clears its error. The element is destroyed exactly when it was mounted. |
| Cart.CheckoutOpenClose | src/app/carrito/carrito.component.ts:267-324 | From a closed checkout, opening it, loading both lists and closing it returns to the closed state with only the lists kept, and tears nothing down. |
| Cart.CardFormOpenCancel | src/app/carrito/carrito.component.ts:342-363 | Opening the card form and cancelling it leaves only the saved method deselected. The element is destroyed exactly when it was mounted. |
| Cart.PaymentFailed | src/app/carrito/carrito.component.ts:428-432 | Ends card processing and shows the error's message, or the fixed fallback when the message is empty. |
| Cart.ProcessCardPayment | src/app/carrito/carrito.component.ts:365-432 | Without an address or a cart, one alert and no change. Otherwise processing always ends and an empty cart sends nothing. The requests go out in order and stop at the first failure: the payment intent for the subtotal and first product, the card confirmation with the intent's client secret, then the order confirmation with the intent id, the address and the subtotal. The error is empty exactly when every step and the cart clearing succeed. |
| Cart.CardPaymentGuards | src/app/carrito/carrito.component.ts:365-374 | Without an address or without a cart, the only effect is the matching alert and the state is unchanged. |
| Cart.CardPaymentFailureKeepsCheckout | src/app/carrito/carrito.component.ts:376-432 | Any failure before the order is confirmed leaves card processing off and sets a non-empty error. The modal, the card form and the cart stay as they were, and no cart-clear request or navigation is sent. |
| Cart.CardPaymentErrorMessage | src/app/carrito/carrito.component.ts:376-432 | The error shown is the message of the first step that failed, or the fixed fallback without one. An empty cart gives the error of reading its first line. |
| Cart.CardPaymentClearsCartIffPaid | src/app/carrito/carrito.component.ts:376-432 | Once the guards pass, the cart-clear request is sent exactly when the intent, the card confirmation and the order confirmation all succeed. |
| Cart.CardPaymentSuccess | src/app/carrito/carrito.component.ts:412-424 | Once the order is confirmed, the modal is closed, processing ends and the card element is gone, whatever happens next. The user reaches the profile page exactly when clearing the cart succeeds, and then no error is shown. When clearing fails, the error stays set and no success alert is shown. |
| Cart.ConfirmPurchase | src/app/carrito/carrito.component.ts:515-531 | The checks run in order: address, method, non-empty cart. Each failure gives one alert and changes nothing. A purchase starts, and sets `procesandoPago`, exactly when all three pass. |
| Cart.FinishPurchase | src/app/carrito/carrito.component.ts:534-556 | When the timer fires, processing ends, the modal closes and the last effect is the cart-clear request. |
| Cart.SavedMethodPurchaseCycle | src/app/carrito/carrito.component.ts:515-556 | From the click to the timer, `procesandoPago` is raised then lowered, the checkout ends closed with the cart kept, and the cart-clear request is sent exactly once. |
| Cart.PurchaseCartCleared | src/app/carrito/carrito.component.ts:548-554 | On success the change is broadcast, the user is alerted and sent to the profile page. A failure does nothing. |
| Cart.FirstKeyword | src/app/carrito/carrito.component.ts:450-467 | Returns the first keyword of the table, in table order, that the lower-cased bank name contains, if there is one. |
| Cart.DetectBrand | src/app/carrito/carrito.component.ts:445-470 | An empty bank gives `generic`. Any other result is the brand of a table keyword. |
| Cart.DetectBrandFirstMatch | src/app/carrito/carrito.component.ts:464-469 | The brand is the brand of the earliest matching keyword. The result is `generic` exactly when the bank is empty or no keyword matches. |
| Cart.DetectBrandRange | src/app/carrito/carrito.component.ts:450-461 | The result is one of the eight brands or `generic`. |
| Cart.DetectBrandVisaExample | src/app/carrito/carrito.component.ts:464-468 | "BBVA Visa Gold" is detected as Visa. |
| Cart.DetectBrandUnknownExample | src/app/carrito/carrito.component.ts:469 | "Banco Desconocido" is `generic`. |
| Cart.CardLogo | src/app/carrito/carrito.component.ts:472-492 | Always one of the logo URLs, namely the one for the method's brand. A method without a bank gets the generic logo. |
| Cart.BrandName | src/app/carrito/carrito.component.ts:494-512 | No bank gives "Tarjeta". An unknown brand gives the bank name. A known brand gives its display name. The result is never empty. |
| Cart.ImageUrl | src/app/carrito/carrito.component.ts:587-594 | A falsy image gives the placeholder. Absolute, asset and inline paths are kept, `/uploads/` paths are served from the host, and any other path gives the placeholder. The result is always displayable. |
| Cart.ImageUrlIdempotent | src/app/carrito/carrito.component.ts:587-594 | Building the URL of an already built URL changes nothing. |
| AddressForm.StatesFor | src/app/perfil/editdireccion/editdireccion.component.ts:172-187 | United States gives its 10 states and Canada its 6 provinces. Every other country, México included, gives the 32 Mexican states. |
| AddressForm.CountryChanged | src/app/perfil/editdireccion/editdireccion.component.ts:189-203 | Clears state, city, neighbourhood, postal code, the neighbourhood list and both lookup flags. Keeps street, numbers, references and country, and reloads the state table. |
| AddressForm.StatesFollowCountry | src/app/perfil/editdireccion/editdireccion.component.ts:172-203 | The state list is the table of the selected country after a country change and after parsing, and a postal-code lookup keeps that so. |
| AddressForm.StartLookup | src/app/perfil/editdireccion/editdireccion.component.ts:205-227 | A lookup starts exactly when the trimmed code is five digits and the country is México. Otherwise nothing changes. |
| AddressForm.Distinct | src/app/perfil/editdireccion/editdireccion.component.ts:241 | Has no duplicates and holds exactly the input's elements. The first element is the input's first. |
| AddressForm.LookupAnswered | src/app/perfil/editdireccion/editdireccion.component.ts:228-273 | Answering ends the search with "found" or "error" set. Only state, city and neighbourhood of the address may change, and the user and state table are kept. |
| AddressForm.DistinctKeepsFirstAppearance | src/app/perfil/editdireccion/editdireccion.component.ts:241 | Elements appear in the order of their first appearance in the input. |
| AddressForm.LookupFound | src/app/perfil/editdireccion/editdireccion.component.ts:233-254 | A non-empty result takes the state and city from the first record. The neighbourhood list is the distinct neighbourhoods of the result in order of first appearance. It selects the first neighbourhood and marks the code found. |
| AddressForm.LookupNotFound | src/app/perfil/editdireccion/editdireccion.component.ts:255-273 | An empty result or a failed request sets the error flag and ends the search. Nothing else changes. |
| AddressForm.LookupEndsFoundOrError | src/app/perfil/editdireccion/editdireccion.component.ts:220-273 | After a started lookup is answered, the search has ended and exactly one of "found" and "error" holds. |
| AddressForm.TrimAll | src/app/perfil/editdireccion/editdireccion.component.ts:280 | Trims every comma part and keeps their number. |
| AddressForm.ParseStreet | src/app/perfil/editdireccion/editdireccion.component.ts:284-298 | Without `#` the part is the street. With `#`, the street is the trimmed text before the first `#`. The exterior number is the trimmed text after it, or before "Int" when "Int" follows; the interior number is the trimmed text after "Int", and is kept when there is no "Int". |
| AddressForm.RestInsidePart | src/app/perfil/editdireccion/editdireccion.component.ts:286-289 | "Int" found after the `#` was also in the whole part. |
| AddressForm.ParseAddress | src/app/perfil/editdireccion/editdireccion.component.ts:277-317 | Fewer than four parts change no field. Four or more fill neighbourhood, postal code without "CP", city, state and country (defaulting to México). With the reference marker the references are the trimmed text after it; without it they are kept. The state table follows the country. |
| AddressForm.ParseStreetLine | src/app/perfil/editdireccion/editdireccion.component.ts:284-298 | Parsing `<street> #<ext> Int <int>` gives those three fields back. |
| AddressForm.OneLineParts | src/app/perfil/editdireccion/editdireccion.component.ts:280 | The one-line layout splits and trims into the six pieces it was built from. |
| AddressForm.ParseOneLine | src/app/perfil/editdireccion/editdireccion.component.ts:277-317 | Parsing the one-line form of an address whose fields carry no separator gives that address back, references aside, with the state list of its country. |
| AddressForm.Optional | src/app/perfil/editdireccion/editdireccion.component.ts:344-350 | A blank optional field is sent as `null`, otherwise trimmed. |
| AddressForm.SaveAddress | src/app/perfil/editdireccion/editdireccion.component.ts:319-351 | A request is built exactly when all seven required fields are filled and the user id is truthy, each failure with its own outcome. The required fields are sent trimmed. The interior number and the references are sent trimmed, or as `null` when blank. |
| AddressForm.SaveWellFormed | src/app/perfil/editdireccion/editdireccion.component.ts:319-351 | With a truthy user id, fields without surrounding whitespace are submitted unchanged, and the optional interior number is sent as given. |
| AddressForm.SaveParsedAddress | src/app/perfil/editdireccion/editdireccion.component.ts:277-351 | Saving an address just parsed from its one-line form submits exactly that address's fields. |
| AdminProducts.Keep | src/app/admin/admin-productos/admin-productos.component.ts:117-130 | Keeps exactly the elements satisfying the predicate and never grows the list. |
| AdminProducts.KeepIsSubsequence | src/app/admin/admin-productos/admin-productos.component.ts:117-130 | Filtering preserves the order of what it keeps. |
| AdminProducts.KeepKeep | src/app/admin/admin-productos/admin-productos.component.ts:114-132 | Two filters in a row equal one filter by their conjunction. |
| AdminProducts.FilterProducts | src/app/admin/admin-productos/admin-productos.component.ts:113-133 | A product is shown exactly when it is in the full list and meets every active filter: text in name or description, category, status. |
| AdminProducts.FilterIsConjunction | src/app/admin/admin-productos/admin-productos.component.ts:113-133 | The staged text, category and status filters equal one pass with all the active conditions, and the result keeps the original order. |
| AdminProducts.FilterIdempotent | src/app/admin/admin-productos/admin-productos.component.ts:113-133 | Filtering the filtered list again changes nothing. |
| AdminProducts.NoFiltersShowAll | src/app/admin/admin-productos/admin-productos.component.ts:113-133 | With no active filter every product is shown. |
| AdminProducts.ApplyFilters | src/app/admin/admin-productos/admin-productos.component.ts:113-137 | The shown list is recomputed from the full list with the current filters. Nothing else changes. |
| AdminProducts.FiltersNotCumulative | src/app/admin/admin-productos/admin-productos.component.ts:114 | New filters apply to the full list, never to the previously shown one, and reapplying is stable. |
| AdminProducts.ClearFilters | src/app/admin/admin-productos/admin-productos.component.ts:139-144 | Clears all three filters and shows the full list, which is what filtering with no filter shows. |
| AdminProducts.ComputeStats | src/app/admin/admin-productos/admin-productos.component.ts:107-111 | The total is the list length, the other counts are the numbers of active and of inactive products, and the two counts never exceed the total. |
| AdminProducts.CountsOfDistinctStatuses | src/app/admin/admin-productos/admin-productos.component.ts:109-110 | Counts of two different statuses add up to at most the list length. |
| AdminProducts.CountIsKeptLength | src/app/admin/admin-productos/admin-productos.component.ts:109 | A status count is the length of the list filtered by that status. |
| AdminProducts.ValidateCreate | src/app/admin/admin-productos/admin-productos.component.ts:227-245 | A form is valid exactly when the name is not blank, the price is positive, the stock is non-negative and a category is chosen. Otherwise the first failing check's message is reported. |
| AdminProducts.CreateProduct | src/app/admin/admin-productos/admin-productos.component.ts:195-212 | A product is submitted exactly when the form is valid and an image is chosen, always as active. Otherwise the validation message or the image message is reported. |
| AdminProducts.ToggledStatus | src/app/admin/admin-productos/admin-productos.component.ts:261 | Active becomes inactive and every other status becomes active. The result always differs from the input. |
| AdminProducts.ToggleInvolution | src/app/admin/admin-productos/admin-productos.component.ts:261 | Toggling an active or inactive status twice restores it. |
| AdminProducts.ChangeStatusRequest | src/app/admin/admin-productos/admin-productos.component.ts:260-267 | The request is made exactly when confirmed, for the product's id and its toggled status. |
| AdminProducts.SetStatus | src/app/admin/admin-productos/admin-productos.component.ts:270 | Only products with the given id change, and only in their status. |
| AdminProducts.StatusChanged | src/app/admin/admin-productos/admin-productos.component.ts:268-278 | On success the product with that id takes the new status in both the full and the shown list, and the statistics are recomputed from the full list. On failure nothing changes. |
| AdminProducts.StatusChangeUndone | src/app/admin/admin-productos/admin-productos.component.ts:260-278 | Two successful toggles give every product its old status back. |
| AdminProducts.DeleteRequest | src/app/admin/admin-productos/admin-productos.component.ts:281-284 | The delete is requested exactly when confirmed, for the product's id. |
| AdminProducts.DeleteFlow | src/app/admin/admin-productos/admin-productos.component.ts:281-295 | Without confirmation or after a failed delete the page is unchanged. A confirmed, successful delete reloads the products. |
| AdminProducts.DeleteNeedsConfirmation | src/app/admin/admin-productos/admin-productos.component.ts:281-295 | The product list changes through a delete only after confirmation, a successful delete and an answered reload. A reload without the product leaves it out of the shown list. |
| AdminProducts.ProductsLoaded | src/app/admin/admin-productos/admin-productos.component.ts:78-93 | On success both lists become the reply and the statistics are recomputed. The filter inputs are kept. On failure nothing changes. |
| AdminProducts.ReloadShowsUnfiltered | src/app/admin/admin-productos/admin-productos.component.ts:83-84 | After a reload the shown list is what no filter gives, while the filter inputs keep their values. |
| AdminProducts.FindCategory | src/app/admin/admin-productos/admin-productos.component.ts:147 | Finds the first category with the id, if any. |
| AdminProducts.CategoryName | src/app/admin/admin-productos/admin-productos.component.ts:146-149 | Gives the first matching category's name, or "Sin categoría" when there is none or its name is empty. The result is never empty. |
| ProductEditor.LoadForm | src/app/admin/admin-productos/editar-producto/editar-producto.component.ts:47-58 | Truthy values are copied, price and stock included. Falsy text fields become `''` and a falsy condition becomes `'nuevo'`, so the condition is never empty. |
| ProductEditor.LoadSavedForm | src/app/admin/admin-productos/editar-producto/editar-producto.component.ts:47-58 | Loading a product saved from a form with a non-empty condition gives that form back. |
| ProductEditor.Init | src/app/admin/admin-productos/editar-producto/editar-producto.component.ts:41-45 | The form is filled only when a product was given. |
| ProductEditor.SelectImage | src/app/admin/admin-productos/editar-producto/editar-producto.component.ts:61-71 | A picked file replaces the pending image. No file keeps it. Nothing else changes. |
| ProductEditor.Validate | src/app/admin/admin-productos/editar-producto/editar-producto.component.ts:115-129 | Valid exactly when the name is not blank, the price is positive and the stock is non-negative. Otherwise the first failing check's message is reported, in the order name, price, stock. |
| ProductEditor.EditIsCreateWithoutCategory | src/app/admin/admin-productos/editar-producto/editar-producto.component.ts:115-129 | The edit check agrees with the create check on the same fields, except that creating also requires a category. |
| ProductEditor.CreatedIsEditable | src/app/admin/admin-productos/editar-producto/editar-producto.component.ts:115-129 | A product the creation form accepts is also accepted by the editor. |
| ProductEditor.Payload | src/app/admin/admin-productos/editar-producto/editar-producto.component.ts:80-92 | Eight fields are always sent. A file part is present exactly when a new image was picked. |
| ProductEditor.PayloadRoundTrip | src/app/admin/admin-productos/editar-producto/editar-producto.component.ts:80-92 | Reading the body back gives the form and exactly the picked image. |
| ProductEditor.SaveChanges | src/app/admin/admin-productos/editar-producto/editar-producto.component.ts:73-97 | An invalid form only sets the error message. A valid form sets `guardando` and clears the messages. The update is sent exactly when the form is valid and a product is loaded. |
| ProductEditor.InvalidFormSendsNothing | src/app/admin/admin-productos/editar-producto/editar-producto.component.ts:74 | An invalid form sends nothing, leaves `guardando` as it was and shows an error. |
| ProductEditor.SaveReplied | src/app/admin/admin-productos/editar-producto/editar-producto.component.ts:98-112 | Saving ends either way. Success shows the success message and closes after 1500 ms. Failure shows the server's detail, or "Error al actualizar el producto" without one. |
| ProductEditor.SaveCycle | src/app/admin/admin-productos/editar-producto/editar-producto.component.ts:73-112 | After a sent save and its answer, `guardando` is off. The success message shows exactly when the server accepted the update, and an error shows exactly when it did not. |
| ProductEditor.Cancel | src/app/admin/admin-productos/editar-producto/editar-producto.component.ts:131-133 | Closes only when a close callback was given. |
| ChatAssistant.InitChat | src/app/chat-ia/chat-ia.component.ts:67-76 | Appends one assistant welcome message tagged `texto`. Nothing else changes. |
| ChatAssistant.Send | src/app/chat-ia/chat-ia.component.ts:99-115 | A blank input changes and sends nothing. Otherwise the untrimmed input is appended as the user's message, the input is cleared, `cargando` is set and the question is sent. |
| ChatAssistant.UseSuggestion | src/app/chat-ia/chat-ia.component.ts:159-162 | A suggestion is sent as if typed: a non-blank one is appended as the user's message, the input is cleared, `cargando` is set and the question is sent. |
| ChatAssistant.NormalizeTag | src/app/chat-ia/chat-ia.component.ts:122-127 | Without products the tag is the reply's tag or `texto`. With products it is `productos_medicos` exactly for a medical consultation and `productos` otherwise. |
| ChatAssistant.ReplyMessage | src/app/chat-ia/chat-ia.component.ts:129-150 | An assistant message with non-empty text and tag. The answer's text, or the fixed fallback, goes with its products or `[]`, tagged by the tag rule. An error gives the fixed error text tagged `texto`. |
| ChatAssistant.Replied | src/app/chat-ia/chat-ia.component.ts:138-153 | Appends exactly that one message and ends `cargando`. |
| ChatAssistant.SendThenReply | src/app/chat-ia/chat-ia.component.ts:110-153 | A sent question and its reply grow the list by exactly two: the user's message, then the assistant's. The input is empty and `cargando` is off. |
| ChatAssistant.Turn | src/app/chat-ia/chat-ia.component.ts:99-156 | A blank turn leaves the list. Any other turn appends the user's message and the reply's message. |
| ChatAssistant.ConversationAnswered | src/app/chat-ia/chat-ia.component.ts:99-156 | When each question is answered before the next, earlier messages are never changed and every user message is followed directly by an assistant message. |
| Profile.ResolveImage | src/app/perfil/perfil.component.ts:107-131 | A missing or blank path gives the placeholder. Absolute, asset and inline paths are kept, `/uploads` paths are served from the host, and anything else gives the placeholder. |
| Profile.ProfileImage | src/app/perfil/perfil.component.ts:120-131 | A missing or blank path gives `assets/img/profile.jpeg`. Any result is that placeholder or a displayable URL. |
| Profile.ProductImage | src/app/perfil/perfil.component.ts:107-118 | A missing or blank path gives `assets/img/producto-default.jpg`. Any result is that placeholder or a displayable URL. |
| Profile.ResolveImageIdempotent | src/app/perfil/perfil.component.ts:107-131 | Resolving a resolved URL changes nothing. |
| Profile.LocalPart | src/app/perfil/perfil.component.ts:52 | The text before the first `@`, or the whole address without one. It never contains `@`. |
| Profile.DisplayName | src/app/perfil/perfil.component.ts:48-52 | The first truthy of `nombre`, `firstName` and `username`. Failing those, the email's local part when an email is set, else "Usuario". |
| Profile.DisplayNameEmptyIff | src/app/perfil/perfil.component.ts:48-52 | The name is empty exactly when no name field is set and the email starts with `@`. |
| Profile.LoadUser | src/app/perfil/perfil.component.ts:42-61 | Without a stored user nothing changes. Otherwise it sets the id, the name chain, the email or `''`, and the resolved picture. |
| Profile.Normalize | src/app/perfil/perfil.component.ts:86-105 | Both ids are `id_producto`, or `id` when that is falsy. The seller falls back to the owner's name, then "Vendedor". The image is the resolved product image. A falsy sale date falls back to `fecha_vendido`, a falsy availability to 0, a falsy condition to `'nuevo'` and a falsy free-text field to `''`; truthy ones are kept. Category fields pass through. |
| Profile.NormalizeIdempotent | src/app/perfil/perfil.component.ts:86-105 | A normalised purchase, listed again, normalises to itself. |
| Profile.LoadPurchases | src/app/perfil/perfil.component.ts:63-71 | A request is made exactly when the user id is truthy. Otherwise nothing changes. |
| Profile.PurchasesLoaded | src/app/perfil/perfil.component.ts:72-83 | Each purchase is normalised in order, or the list is empty on error. `cargando` ends. |
| Profile.PurchaseLoadCycle | src/app/perfil/perfil.component.ts:63-83 | A request raises `cargando` and its answer lowers it, keeping the user and showing one purchase per listed one, or none on error. Without a user id nothing happens. |

## Left out

- Formatting replies as HTML (`formatearTexto`) is left out. It is display markup built from regular expressions.
- Removing a cart item and emptying the cart are left out. They are confirmation-gated requests with no logic beyond the request.
- Loading the cart, the counters and the signed-in user from local storage is left out in `carrito`, `chat-ia` and `admin-productos`. So are `logout`, the user menu and the click-outside handler. These are storage and DOM plumbing. The profile page's `cargarUsuario` is modelled.
- Timers, scrolling, focus, the `FileReader` preview and the Stripe element's DOM mounting are left out. They appear only as effects or as inputs.
- Concurrency is not modelled: each reply is handled as a separate transition. A second request started while the first is in flight is allowed, as in the code, but the interleaving of their answers is not modelled.
- Prices are `real` and are only compared or passed along. Floating-point rounding and `Number.prototype.toString` are not modelled, so the multipart body keeps the number itself.
- `Text.Lower` lower-cases ASCII letters only. JavaScript's `toLowerCase` also maps other Unicode letters.
- Message ids and timestamps of chat messages are left out. They come from the clock.
- `AdminProducts.FilterProducts`: the source compares the category with `==` between a select string and a number. The model compares the number the select holds.
- The subtotal and the product count of the cart are computed by the server and taken as given. No invariant between them and the items is stated.
- In `guardarDireccion`, the server reply and the error message built from it are left out. Only the required-field check and the payload are modelled.
- `AddressForm.ParseAddress`: the text after "| Ref:" is split again by commas, so it also ends up in the country part. The model reproduces this, which is why `AddressForm.ParseOneLine` covers only addresses written without references.
- `AddressForm.ParseOneLine`: the round trip is stated for fields that are non-empty, end in non-whitespace and hold no `,`, `#`, `|` or "Int". Other fields do not survive the one-line layout.
- `Cart.ConfirmPurchase`: it does not gate on `procesandoPago`, so it is not idempotent under repeated clicks. The model follows the code, and each call that passes the checks starts another purchase timer.
- `Cart.PayWithNewCard` does not destroy a card element that is already mounted before mounting a new one. The model follows the code.
- Category and product loading errors only log or alert. `cargarCategorias` is not modelled beyond that.
- `AdminProducts.StatusChanged`: the code mutates the one product object both lists share. The model has no shared objects and updates the product with that id in both lists.
- `AdminProducts.DeleteFlow`: the alerts shown after the delete are left out; only the page state is modelled.
- `ProductEditor.Cancel` only forwards to the host's close callback. The callback itself belongs to the host component and is not part of this model.

=== FILE: address.dfy ===
/** The address editor: the country-dependent state list, the postal-code
    lookup and the reconciliation of its records into the form, the parser
    of a stored one-line address, and the required-field check before the
    address is submitted. The postal-code service and the address service
    are abstract: their answers are inputs. */
module AddressForm {
  import opened JsValues
  import opened Text

  datatype StateEntry = StateEntry(name: string, code: string)

  datatype Address = Address(
    street: string,            // calle
    exteriorNumber: string,    // numeroExterior
    interiorNumber: string,    // numeroInterior
    neighborhood: string,      // colonia
    postalCode: string,        // codigoPostal
    city: string,              // ciudad
    state: string,             // estado
    country: string,           // pais
    references: string         // referencias
  )

  datatype FormState = FormState(
    userId: Option<int>,
    address: Address,
    states: seq<StateEntry>,       // estadosDisponibles
    neighborhoods: seq<string>,    // colonias
    searching: bool,               // buscandoCP
    cpFound: bool,                 // cpEncontrado
    cpError: bool                  // errorCP
  )

  // ===== State tables =====

  const Mexico := "México"

  const MexicoStates: seq<StateEntry> := [
    StateEntry("Aguascalientes", "AGS"), StateEntry("Baja California", "BC"),
    StateEntry("Baja California Sur", "BCS"), StateEntry("Campeche", "CAM"),
    StateEntry("Chiapas", "CHIS"), StateEntry("Chihuahua", "CHIH"),
    StateEntry("Ciudad de México", "CDMX"), StateEntry("Coahuila", "COAH"),
    StateEntry("Colima", "COL"), StateEntry("Durango", "DGO"),
    StateEntry("Guanajuato", "GTO"), StateEntry("Guerrero", "GRO"),
    StateEntry("Hidalgo", "HGO"), StateEntry("Jalisco", "JAL"),
    StateEntry("México", "MEX"), StateEntry("Michoacán", "MICH"),
    StateEntry("Morelos", "MOR"), StateEntry("Nayarit", "NAY"),
    StateEntry("Nuevo León", "NL"), StateEntry("Oaxaca", "OAX"),
    StateEntry("Puebla", "PUE"), StateEntry("Querétaro", "QRO"),
    StateEntry("Quintana Roo", "QROO"), StateEntry("San Luis Potosí", "SLP"),
    StateEntry("Sinaloa", "SIN"), StateEntry("Sonora", "SON"),
    StateEntry("Tabasco", "TAB"), StateEntry("Tamaulipas", "TAMPS"),
    StateEntry("Tlaxcala", "TLAX"), StateEntry("Veracruz", "VER"),
    StateEntry("Yucatán", "YUC"), StateEntry("Zacatecas", "ZAC")
  ]

  const UsaStates: seq<StateEntry> := [
    StateEntry("California", "CA"), StateEntry("Texas", "TX"),
    StateEntry("Florida", "FL"), StateEntry("New York", "NY"),
    StateEntry("Arizona", "AZ"), StateEntry("Illinois", "IL"),
    StateEntry("Pennsylvania", "PA"), StateEntry("Ohio", "OH"),
    StateEntry("Georgia", "GA"), StateEntry("North Carolina", "NC")
  ]

  const CanadaStates: seq<StateEntry> := [
    StateEntry("Ontario", "ON"), StateEntry("Quebec", "QC"),
    StateEntry("British Columbia", "BC"), StateEntry("Alberta", "AB"),
    StateEntry("Manitoba", "MB"), StateEntry("Saskatchewan", "SK")
  ]

  /** `cargarEstados`: the state table of the selected country; any country
      other than the United States or Canada gets the Mexican one. */
  function StatesFor(country: string): (r: seq<StateEntry>)
    ensures country == "Estados Unidos" ==> r == UsaStates && |r| == 10
    ensures country == "Canadá" ==> r == CanadaStates && |r| == 6
    ensures country != "Estados Unidos" && country != "Canadá" ==> r == MexicoStates && |r| == 32
  {
    match country
    case "México" => MexicoStates
    case "Estados Unidos" => UsaStates
    case "Canadá" => CanadaStates
    case _ => MexicoStates
  }

  /** `onPaisChange`: the fields that depend on the country and the lookup
      flags are cleared and the state list follows the new country; street,
      house numbers, references and the country itself are kept. */
  function CountryChanged(s: FormState): (r: FormState)
    ensures r.address.state == "" && r.address.city == "" && r.address.neighborhood == ""
    ensures r.address.postalCode == "" && r.neighborhoods == []
    ensures !r.cpFound && !r.cpError
    ensures r.address.street == s.address.street
    ensures r.address.exteriorNumber == s.address.exteriorNumber
    ensures r.address.interiorNumber == s.address.interiorNumber
    ensures r.address.references == s.address.references
    ensures r.address.country == s.address.country
    ensures r.states == StatesFor(s.address.country)
    ensures r.userId == s.userId && r.searching == s.searching
  {
    var a := s.address.(state := "", city := "", neighborhood := "", postalCode := "");
    s.(address := a, neighborhoods := [], cpFound := false, cpError := false,
       states := StatesFor(s.address.country))
  }

  /** The state list is the table of the selected country. */
  predicate StatesMatchCountry(s: FormState) {
    s.states == StatesFor(s.address.country)
  }

  // ===== Postal-code lookup =====

  predicate IsDigit(c: char) {
    '0' <= c <= '9'
  }

  /** `/^\d{5}$/`: exactly five ASCII digits. */
  predicate IsPostalCode(cp: string) {
    |cp| == 5 && forall i | 0 <= i < 5 :: IsDigit(cp[i])
  }

  /** A form state with the lookup request (the trimmed code), if one is made. */
  datatype Lookup = Lookup(state: FormState, query: Option<string>)

  /** `buscarPorCodigoPostal` up to the request: only a trimmed code of five
      digits in Mexico is looked up, and then the flags and the neighbourhood
      list are reset; otherwise nothing changes. */
  function StartLookup(s: FormState): (r: Lookup)
    ensures r.query.Some? <==> IsPostalCode(Trim(s.address.postalCode)) && s.address.country == Mexico
    ensures r.query.None? ==> r.state == s
    ensures r.query.Some? ==>
      && r.query.value == Trim(s.address.postalCode)
      && r.state == s.(searching := true, cpError := false, cpFound := false, neighborhoods := [])
  {
    var cp := Trim(s.address.postalCode);
    if |cp| != 5 || !IsPostalCode(cp) then Lookup(s, None)
    else if s.address.country != Mexico then Lookup(s, None)
    else Lookup(s.(searching := true, cpError := false, cpFound := false, neighborhoods := []), Some(cp))
  }

  /** One record of the postal-code service. */
  datatype PostalRecord = PostalRecord(
    code: string,          // d_codigo
    state: string,         // d_estado
    city: string,          // d_ciudad
    neighborhood: string,  // d_asenta
    municipality: string,  // D_mnpio
    settlementType: string // d_tipo_asenta
  )

  /** The answer of the postal-code service: a payload whose `data` may be
      missing, or a transport error. */
  datatype LookupReply = Answered(data: Option<seq<PostalRecord>>) | Unreachable

  predicate NoDuplicates<T(==)>(xs: seq<T>) {
    forall i, j | 0 <= i < j < |xs| :: xs[i] != xs[j]
  }

  /** `[...new Set(xs)]`: each distinct value once, in order of first
      appearance. */
  function Distinct<T(==)>(xs: seq<T>): (r: seq<T>)
    ensures NoDuplicates(r)
    ensures forall i | 0 <= i < |xs| :: xs[i] in r
    ensures forall i | 0 <= i < |r| :: r[i] in xs
    ensures |r| <= |xs|
    ensures |xs| > 0 ==> |r| > 0 && r[0] == xs[0]
  {
    if |xs| == 0 then []
    else
      var init := xs[..|xs| - 1];
      var last := xs[|xs| - 1];
      var d := Distinct(init);
      assert xs == init + [last];
      assert |init| > 0 ==> init[0] == xs[0];
      if last in d then d else d + [last]
  }

  /** The index of the first occurrence of `x` in `xs`. */
  function FirstIndex<T(==)>(xs: seq<T>, x: T): (i: nat)
    requires x in xs
    ensures i < |xs| && xs[i] == x && x !in xs[..i]
  {
    if xs[0] == x then 0
    else
      var k := FirstIndex(xs[1..], x);
      assert xs[..k + 1] == [xs[0]] + xs[1..][..k];
      1 + k
  }

  /** Any index holding `x` with no `x` before it is the first index. */
  lemma FirstIndexUnique<T>(xs: seq<T>, x: T, i: nat)
    requires i < |xs| && xs[i] == x && x !in xs[..i]
    ensures FirstIndex(xs, x) == i
  {
  }

  /** A value occurring in a prefix has the same first index in the prefix
      as in the whole sequence. */
  lemma FirstIndexInPrefix<T>(xs: seq<T>, n: nat, x: T)
    requires n <= |xs| && x in xs[..n]
    ensures FirstIndex(xs, x) == FirstIndex(xs[..n], x)
  {
    var f := FirstIndex(xs[..n], x);
    assert xs[..n][..f] == xs[..f];
    FirstIndexUnique(xs, x, f);
  }

  /** The distinct values are listed in the order in which they first
      appear in the input. */
  lemma {:induction false} DistinctKeepsFirstAppearance<T>(xs: seq<T>)
    ensures forall i, j | 0 <= i < j < |Distinct(xs)| ::
      FirstIndex(xs, Distinct(xs)[i]) < FirstIndex(xs, Distinct(xs)[j])
  {
    if |xs| > 0 {
      var n := |xs| - 1;
      var init := xs[..n];
      var last := xs[n];
      var d := Distinct(init);
      DistinctKeepsFirstAppearance(init);
      var r := Distinct(xs);
      assert r == if last in d then d else d + [last];
      forall i, j | 0 <= i < j < |r| ensures FirstIndex(xs, r[i]) < FirstIndex(xs, r[j]) {
        assert r[i] == d[i] && d[i] in init;
        if j < |d| {
          assert r[j] == d[j] && d[j] in init;
          FirstIndexInPrefix(xs, n, r[i]);
          FirstIndexInPrefix(xs, n, r[j]);
        } else {
          assert r[j] == last;
          LastIsNew(init, d, last);
          FirstIndexInPrefix(xs, n, r[i]);
          FirstIndexUnique(xs, last, n);
        }
      }
    }
  }

  /** A value missing from the distinct values of `init` is missing from `init`. */
  lemma LastIsNew<T>(init: seq<T>, d: seq<T>, last: T)
    requires d == Distinct(init) && last !in d
    ensures last !in init
  {
  }

  /** The neighbourhood (`asentamiento`) of each record, in order. */
  function Neighborhoods(data: seq<PostalRecord>): (names: seq<string>)
    ensures |names| == |data|
    ensures forall i | 0 <= i < |data| :: names[i] == data[i].neighborhood
  {
    seq(|data|, i requires 0 <= i < |data| => data[i].neighborhood)
  }

  /** The reconciliation of a lookup answer (the `next` and `error` handlers). */
  function LookupAnswered(s: FormState, reply: LookupReply): (r: FormState)
    ensures !r.searching && (r.cpFound || r.cpError)
    ensures r.userId == s.userId && r.states == s.states
    ensures r.address.(state := s.address.state, city := s.address.city, neighborhood := s.address.neighborhood) == s.address
  {
    if reply.Answered? && reply.data.Some? && |reply.data.value| > 0 then
      var data := reply.data.value;
      var first := data[0];
      var names := Distinct(Neighborhoods(data));
      var a := s.address.(state := first.state, city := first.municipality);
      var a' := if |names| > 0 then a.(neighborhood := names[0]) else a;
      s.(address := a', neighborhoods := names, cpFound := true, searching := false)
    else
      s.(cpError := true, searching := false)
  }

  /** A non-empty answer fills state and city from the first record, lists
      every neighbourhood of the answer once, selects the first record's
      neighbourhood and marks the code as found; street, numbers, postal code
      and country stay as they were. */
  lemma LookupFound(s: FormState, data: seq<PostalRecord>)
    requires |data| > 0
    ensures var r := LookupAnswered(s, Answered(Some(data)));
      && r.address.state == data[0].state
      && r.address.city == data[0].municipality
      && NoDuplicates(r.neighborhoods)
      && (forall i | 0 <= i < |data| :: data[i].neighborhood in r.neighborhoods)
      && (forall k | 0 <= k < |r.neighborhoods| :: exists i | 0 <= i < |data| :: data[i].neighborhood == r.neighborhoods[k])
      && r.address.neighborhood == data[0].neighborhood
      && r.neighborhoods == Distinct(Neighborhoods(data))
      && (forall i, j | 0 <= i < j < |r.neighborhoods| ::
            FirstIndex(Neighborhoods(data), r.neighborhoods[i]) < FirstIndex(Neighborhoods(data), r.neighborhoods[j]))
      && |r.neighborhoods| > 0 && r.address.neighborhood == r.neighborhoods[0]
      && r.cpFound && !r.searching && r.cpError == s.cpError
      && r.address.(state := s.address.state, city := s.address.city, neighborhood := s.address.neighborhood) == s.address
  {
    var names := Neighborhoods(data);
    var d := Distinct(names);
    DistinctKeepsFirstAppearance(names);
    forall i | 0 <= i < |data| ensures data[i].neighborhood in d {
      assert names[i] in d;
    }
    forall k | 0 <= k < |d| ensures exists i | 0 <= i < |data| :: data[i].neighborhood == d[k] {
      var i :| 0 <= i < |names| && names[i] == d[k];
      assert data[i].neighborhood == d[k];
    }
  }

  /** An empty or missing answer, or a transport error, marks the code as not
      found and changes nothing else. */
  lemma LookupNotFound(s: FormState, reply: LookupReply)
    requires reply.Unreachable? || reply.data.None? || |reply.data.value| == 0
    ensures LookupAnswered(s, reply) == s.(cpError := true, searching := false)
  {
  }

  /** A lookup that was started and then answered leaves exactly one of the
      two flags set. */
  lemma LookupEndsFoundOrError(s: FormState, reply: LookupReply)
    requires StartLookup(s).query.Some?
    ensures var r := LookupAnswered(StartLookup(s).state, reply);
      !r.searching && (r.cpFound != r.cpError)
  {
  }

  // ===== Parsing a stored one-line address =====

  function TrimAll(parts: seq<string>): (r: seq<string>)
    ensures |r| == |parts|
    ensures forall i | 0 <= i < |parts| :: r[i] == Trim(parts[i])
  {
    seq(|parts|, i requires 0 <= i < |parts| => Trim(parts[i]))
  }

  /** `raw.split(',').map(p => p.trim())`. */
  function AddressParts(raw: string): seq<string> {
    TrimAll(Split(raw, ","))
  }

  /** The street part `<calle> #<exterior> Int <interior>`: without `#` the
      whole part is the street; otherwise the street is what precedes the
      first `#`, and the text between the first and any second `#` holds the
      exterior number, followed by the interior number after `Int` when it
      contains `Int`. Numbers that are absent keep their previous value. */
  function ParseStreet(a: Address, part: string): (r: Address)
    ensures !Contains(part, "#") ==> r == a.(street := part)
    ensures Contains(part, "#") ==> r.street == Trim(part[..IndexOf(part, "#").value])
    ensures Contains(part, "#") ==>
      var rest := Split(part, "#")[1];
      && (Contains(rest, "Int") ==> && r.exteriorNumber == Trim(Split(rest, "Int")[0])
                                    && r.interiorNumber == Trim(Split(rest, "Int")[1]))
      && (!Contains(rest, "Int") ==> r.exteriorNumber == Trim(rest) && r.interiorNumber == a.interiorNumber)
    ensures r.(street := a.street, exteriorNumber := a.exteriorNumber, interiorNumber := a.interiorNumber) == a
    ensures !Contains(part, "Int") ==> r.interiorNumber == a.interiorNumber
  {
    if Contains(part, "#") then
      var pieces := Split(part, "#");
      var i := IndexOf(part, "#").value;
      SplitFirstPieces(part, "#", i);
      var rest := pieces[1];
      var a1 := a.(street := Trim(pieces[0]));
      if Contains(rest, "Int") then
        var nums := Split(rest, "Int");
        RestInsidePart(part, i, rest);
        a1.(exteriorNumber := Trim(nums[0]), interiorNumber := Trim(nums[1]))
      else
        a1.(exteriorNumber := Trim(rest))
    else
      a.(street := part)
  }

  /** The second piece of a split lies inside the split string. */
  lemma RestInsidePart(part: string, i: nat, rest: string)
    requires IndexOf(part, "#") == Some(i)
    requires rest == Split(part[i + 1..], "#")[0]
    requires Contains(rest, "Int")
    ensures Contains(part, "Int")
  {
    var tail := part[i + 1..];
    var p := IndexOf(tail, "#");
    var j :| 0 <= j <= |rest| && OccursAt(rest, "Int", j);
    if p.Some? {
      assert rest == tail[..p.value];
      assert rest[j..j + 3] == tail[j..j + 3];
    }
    assert part[i + 1 + j..i + 1 + j + 3] == tail[j..j + 3];
    assert OccursAt(part, "Int", i + 1 + j);
  }

  /** `parsearDireccion`: with four or more comma-separated parts the street
      part, neighbourhood, postal code (first `CP` removed), city, state
      (default empty), country (default `México`) and any `| Ref:` reference
      are taken from the string; with fewer parts the address is kept. In
      both cases the state list is reloaded for the resulting country. */
  function ParseAddress(s: FormState, raw: string): (r: FormState)
    ensures |AddressParts(raw)| < 4 ==> r.address == s.address
    ensures var parts := AddressParts(raw);
      |parts| >= 4 ==>
        && r.address.neighborhood == parts[1]
        && r.address.postalCode == Trim(ReplaceFirst(parts[2], "CP", ""))
        && r.address.city == parts[3]
        && r.address.state == (if |parts| > 4 then parts[4] else "")
        && r.address.country == (if |parts| > 5 && parts[5] != "" then parts[5] else Mexico)
        && r.address.street == ParseStreet(s.address, parts[0]).street
        && r.address.exteriorNumber == ParseStreet(s.address, parts[0]).exteriorNumber
        && r.address.interiorNumber == ParseStreet(s.address, parts[0]).interiorNumber
    ensures !Contains(raw, "| Ref:") ==> r.address.references == s.address.references
    ensures |AddressParts(raw)| >= 4 && Contains(raw, "| Ref:") ==> r.address.references == Trim(Split(raw, "| Ref:")[1])
    ensures r.states == StatesFor(r.address.country)
    ensures r.(address := s.address, states := s.states) == s
  {
    var parts := AddressParts(raw);
    if |parts| >= 4 then
      var a := ParseStreet(s.address, parts[0]);
      var a1 := a.(
        neighborhood := parts[1],
        postalCode := Trim(ReplaceFirst(parts[2], "CP", "")),
        city := parts[3],
        state := if |parts| > 4 then parts[4] else "",
        country := if |parts| > 5 && parts[5] != "" then parts[5] else Mexico);
      var a2 := if Contains(raw, "| Ref:") then a1.(references := Trim(Split(raw, "| Ref:")[1])) else a1;
      s.(address := a2, states := StatesFor(a2.country))
    else
      s.(states := StatesFor(s.address.country))
  }

  /** The state list always belongs to the selected country: changing the
      country and parsing a stored address reload it, and the postal-code
      lookup, which keeps the country, keeps it. */
  lemma StatesFollowCountry(s: FormState, raw: string, reply: LookupReply)
    ensures StatesMatchCountry(CountryChanged(s))
    ensures StatesMatchCountry(ParseAddress(s, raw))
    ensures StatesMatchCountry(s) ==> StatesMatchCountry(StartLookup(s).state)
    ensures StatesMatchCountry(s) ==> StatesMatchCountry(LookupAnswered(s, reply))
  {
  }

  // ===== Saving =====

  /** The seven fields `guardarDireccion` requires to be non-empty. */
  predicate RequiredFilled(a: Address) {
    && a.street != "" && a.exteriorNumber != "" && a.neighborhood != ""
    && a.postalCode != "" && a.city != "" && a.state != "" && a.country != ""
  }

  datatype AddressPayload = AddressPayload(
    userId: int,
    street: string,
    exteriorNumber: string,
    interiorNumber: Option<string>,
    neighborhood: string,
    postalCode: string,
    city: string,
    state: string,
    country: string,
    references: Option<string>
  )

  datatype SaveOutcome = MissingFields | MissingUser | Submit(payload: AddressPayload)

  /** A trimmed optional field: `value?.trim() || null`. */
  function Optional(value: string): (r: Option<string>)
    ensures r.None? <==> IsBlank(value)
    ensures r.Some? ==> r.value == Trim(value)
  {
    if Trim(value) == "" then None else Some(Trim(value))
  }

  /** `guardarDireccion` up to the service call: a missing required field or
      a missing user id stops it before any request (in that order);
      otherwise the address is submitted with every field trimmed and blank
      optional fields sent as null. */
  function SaveAddress(s: FormState): (r: SaveOutcome)
    ensures r.Submit? <==> RequiredFilled(s.address) && TruthyInt(s.userId)
    ensures !RequiredFilled(s.address) ==> r == MissingFields
    ensures RequiredFilled(s.address) && !TruthyInt(s.userId) ==> r == MissingUser
    ensures r.Submit? ==>
      && r.payload.userId == s.userId.value
      && r.payload.street == Trim(s.address.street)
      && r.payload.exteriorNumber == Trim(s.address.exteriorNumber)
      && r.payload.neighborhood == Trim(s.address.neighborhood)
      && r.payload.postalCode == Trim(s.address.postalCode)
      && r.payload.city == Trim(s.address.city)
      && r.payload.state == Trim(s.address.state)
      && r.payload.country == Trim(s.address.country)
      && r.payload.interiorNumber == Optional(s.address.interiorNumber)
      && r.payload.references == Optional(s.address.references)
  {
    var a := s.address;
    if !RequiredFilled(a) then MissingFields
    else if !TruthyInt(s.userId) then MissingUser
    else Submit(AddressPayload(
      s.userId.value, Trim(a.street), Trim(a.exteriorNumber), Optional(a.interiorNumber),
      Trim(a.neighborhood), Trim(a.postalCode), Trim(a.city), Trim(a.state), Trim(a.country),
      Optional(a.references)))
  }

  // ===== The one-line layout =====

  /** A field that survives the one-line layout unchanged: non-empty, no
      whitespace at either end, and free of the separators `,`, `#` and `|`
      and of the marker `Int`. */
  predicate Plain(x: string) {
    && Unpadded(x)
    && ',' !in x && '#' !in x && '|' !in x && !Contains(x, "Int")
  }

  /** Non-empty, with no whitespace at either end. */
  predicate Unpadded(x: string) {
    |x| > 0 && !IsWhitespace(x[0]) && !IsWhitespace(x[|x| - 1])
  }

  predicate WellFormed(a: Address) {
    && Plain(a.street) && Plain(a.exteriorNumber) && Plain(a.interiorNumber)
    && Plain(a.neighborhood) && Plain(a.postalCode) && Plain(a.city)
    && Plain(a.state) && Plain(a.country)
  }

  /** `<calle> #<exterior> Int <interior>`. */
  function StreetLine(a: Address): string {
    a.street + " #" + a.exteriorNumber + " Int " + a.interiorNumber
  }

  /** The stored one-line form `parsearDireccion` reads:
      `<calle> #<exterior> Int <interior>, <colonia>, CP <cp>, <ciudad>, <estado>, <país>`. */
  function OneLine(a: Address): string {
    Join(OneLinePieces(a), ",")
  }

  /** The comma-separated pieces of the one-line form, before trimming. */
  function OneLinePieces(a: Address): seq<string> {
    [StreetLine(a), " " + a.neighborhood, " CP " + a.postalCode, " " + a.city, " " + a.state, " " + a.country]
  }

  /** Before the `Int` that follows a text without `Int` of its own there is
      no `Int`: the space in front of it keeps a match from straddling the
      boundary. */
  lemma NoEarlyInt(x: string, y: string)
    requires !Contains(x, "Int")
    ensures forall j | 0 <= j < |x| + 1 :: !OccursAt(x + " Int " + y, "Int", j)
  {
    var s := x + " Int " + y;
    forall j | 0 <= j < |x| + 1 ensures !OccursAt(s, "Int", j) {
      if j + 3 <= |x| {
        assert s[j..j + 3] == x[j..j + 3];
        assert !OccursAt(x, "Int", j);
      } else {
        assert s[j..j + 3][|x| - j] == ' ';
      }
    }
  }

  /** Splitting on `Int` a text without `Int`, followed by ` Int ` and more. */
  lemma FirstInt(x: string, y: string)
    requires !Contains(x, "Int")
    ensures Split(x + " Int " + y, "Int") == [x + " "] + Split(" " + y, "Int")
  {
    var s := x + " Int " + y;
    NoEarlyInt(x, y);
    assert s[|x| + 1..|x| + 4] == "Int";
    SplitAt(s, "Int", |x| + 1);
    assert s[..|x| + 1] == x + " " && s[|x| + 4..] == " " + y;
  }

  /** A space in front of a text without `Int` adds no `Int`. */
  lemma NoIntAfterSpace(y: string)
    requires !Contains(y, "Int")
    ensures !Contains(" " + y, "Int")
  {
    var s := " " + y;
    forall j | 0 <= j <= |s| ensures !OccursAt(s, "Int", j) {
      if j == 0 && 3 <= |s| {
        assert s[0..3][0] == ' ';
      } else if 0 < j && j + 3 <= |s| {
        assert s[j..j + 3] == y[j - 1..j + 2];
        assert !OccursAt(y, "Int", j - 1);
      }
    }
  }

  /** A space in front of an unpadded field is trimmed away. */
  lemma TrimLeadingSpace(x: string)
    requires Unpadded(x)
    ensures Trim(" " + x) == x
  {
    TrimUnique(" " + x, 1, |x| + 1);
    assert (" " + x)[1..|x| + 1] == x;
  }

  /** A space after an unpadded field is trimmed away. */
  lemma TrimTrailingSpace(x: string)
    requires Unpadded(x)
    ensures Trim(x + " ") == x
  {
    TrimUnique(x + " ", 0, |x|);
    assert (x + " ")[..|x|] == x;
  }

  /** The street part of the one-line form is parsed back into the street
      and both house numbers. */
  lemma ParseStreetLine(prev: Address, a: Address)
    requires WellFormed(a)
    ensures ParseStreet(prev, StreetLine(a))
         == prev.(street := a.street, exteriorNumber := a.exteriorNumber, interiorNumber := a.interiorNumber)
  {
    var part := StreetLine(a);
    var rest := a.exteriorNumber + " Int " + a.interiorNumber;
    assert part == (a.street + " ") + ['#'] + rest;
    SplitOnChar(a.street + " ", '#', rest);
    AbsentHead(rest, "#");
    SplitWhole(rest, "#");
    assert Split(part, "#") == [a.street + " ", rest];
    assert OccursAt(part, "#", |a.street| + 1);
    assert IndexOf(part, "#") == Some(|a.street| + 1) by {
      var v := IndexOf(part, "#").value;
      assert part[v..v + 1][0] == part[v];
    }
    assert part[..|a.street| + 1] == a.street + " ";
    FirstInt(a.exteriorNumber, a.interiorNumber);
    NoIntAfterSpace(a.interiorNumber);
    SplitWhole(" " + a.interiorNumber, "Int");
    assert OccursAt(rest, "Int", |a.exteriorNumber| + 1);
    TrimTrailingSpace(a.street);
    TrimTrailingSpace(a.exteriorNumber);
    TrimLeadingSpace(a.interiorNumber);
  }

  /** Split on commas, the one-line form gives back its pieces. */
  lemma SplitOneLine(a: Address)
    requires WellFormed(a)
    ensures Split(OneLine(a), ",") == OneLinePieces(a)
  {
    var pieces := OneLinePieces(a);
    assert ',' !in pieces[0] && ',' !in pieces[1] && ',' !in pieces[2];
    assert ',' !in pieces[3] && ',' !in pieces[4] && ',' !in pieces[5];
    SplitJoinChar(pieces, ',');
    assert "," == [','];
  }

  /** ` CP <cp>` trims to `CP <cp>`. */
  lemma TrimPostalPiece(cp: string)
    requires Unpadded(cp)
    ensures Trim(" CP " + cp) == "CP " + cp
  {
    var s := " CP " + cp;
    assert s[..1] == " " && s[|s|..] == [];
    assert s[1] == 'C' && s[|s| - 1] == cp[|cp| - 1];
    TrimUnique(s, 1, |s|);
    assert s[1..] == "CP " + cp;
  }

  lemma TrimStreetPiece(a: Address)
    requires Unpadded(a.street) && Unpadded(a.interiorNumber)
    ensures Trim(OneLinePieces(a)[0]) == StreetLine(a)
  {
    TrimNoop(StreetLine(a));
  }

  lemma TrimNeighborhoodPiece(a: Address)
    requires Unpadded(a.neighborhood)
    ensures Trim(OneLinePieces(a)[1]) == a.neighborhood
  {
    TrimLeadingSpace(a.neighborhood);
  }

  lemma TrimPostalCodePiece(a: Address)
    requires Unpadded(a.postalCode)
    ensures Trim(OneLinePieces(a)[2]) == "CP " + a.postalCode
  {
    TrimPostalPiece(a.postalCode);
  }

  lemma TrimCityPiece(a: Address)
    requires Unpadded(a.city)
    ensures Trim(OneLinePieces(a)[3]) == a.city
  {
    TrimLeadingSpace(a.city);
  }

  lemma TrimStatePiece(a: Address)
    requires Unpadded(a.state)
    ensures Trim(OneLinePieces(a)[4]) == a.state
  {
    TrimLeadingSpace(a.state);
  }

  lemma TrimCountryPiece(a: Address)
    requires Unpadded(a.country)
    ensures Trim(OneLinePieces(a)[5]) == a.country
  {
    TrimLeadingSpace(a.country);
  }

  /** The comma-separated parts of the one-line form, trimmed. */
  lemma OneLineParts(a: Address)
    requires WellFormed(a)
    ensures var parts := AddressParts(OneLine(a));
      && |parts| == 6
      && parts[0] == StreetLine(a) && parts[1] == a.neighborhood && parts[2] == "CP " + a.postalCode
      && parts[3] == a.city && parts[4] == a.state && parts[5] == a.country
  {
    SplitOneLine(a);
    TrimStreetPiece(a);
    TrimNeighborhoodPiece(a);
    TrimPostalCodePiece(a);
    TrimCityPiece(a);
    TrimStatePiece(a);
    TrimCountryPiece(a);
  }

  /** The one-line form has no `| Ref:` marker. */
  lemma OneLineHasNoReference(a: Address)
    requires WellFormed(a)
    ensures !Contains(OneLine(a), "| Ref:")
  {
    var pieces := OneLinePieces(a);
    assert '|' !in pieces[0] && '|' !in pieces[1] && '|' !in pieces[2];
    assert '|' !in pieces[3] && '|' !in pieces[4] && '|' !in pieces[5];
    JoinAbsent(pieces, ",", '|');
    AbsentHead(OneLine(a), "| Ref:");
  }

  /** Removing the `CP` label from `CP <cp>` and trimming gives the code. */
  lemma PostalCodeUnlabelled(cp: string)
    requires Unpadded(cp)
    ensures Trim(ReplaceFirst("CP " + cp, "CP", "")) == cp
  {
    var s := "CP " + cp;
    assert OccursAt(s, "CP", 0);
    assert IndexOf(s, "CP") == Some(0);
    assert ReplaceFirst(s, "CP", "") == " " + cp;
    TrimLeadingSpace(cp);
  }

  /** Parsing the one-line form of a well-formed address gives that address
      back (the references, absent from the form, keep their value), and the
      state list follows its country. */
  lemma ParseOneLine(s: FormState, a: Address)
    requires WellFormed(a)
    ensures ParseAddress(s, OneLine(a)).address == a.(references := s.address.references)
    ensures ParseAddress(s, OneLine(a)).states == StatesFor(a.country)
  {
    OneLineParts(a);
    ParseStreetLine(s.address, a);
    OneLineHasNoReference(a);
    PostalCodeUnlabelled(a.postalCode);
  }

  /** Saving submits the trimmed fields, so fields without surrounding
      whitespace are submitted as they are. */
  lemma SaveWellFormed(t: FormState, a: Address)
    requires Unpadded(a.street) && Unpadded(a.exteriorNumber) && Unpadded(a.interiorNumber)
    requires Unpadded(a.neighborhood) && Unpadded(a.postalCode) && Unpadded(a.city)
    requires Unpadded(a.state) && Unpadded(a.country)
    requires t.address.(references := a.references) == a && TruthyInt(t.userId)
    ensures SaveAddress(t)
         == Submit(AddressPayload(t.userId.value, a.street, a.exteriorNumber, Some(a.interiorNumber),
                                  a.neighborhood, a.postalCode, a.city, a.state, a.country,
                                  Optional(t.address.references)))
  {
    var x := t.address;
    TrimNoop(x.street);
    TrimNoop(x.exteriorNumber);
    TrimNoop(x.interiorNumber);
    TrimNoop(x.neighborhood);
    TrimNoop(x.postalCode);
    TrimNoop(x.city);
    TrimNoop(x.state);
    TrimNoop(x.country);
    assert RequiredFilled(x);
    assert Optional(x.interiorNumber) == Some(a.interiorNumber);
  }

  /** Saving an address just parsed from its one-line form submits exactly
      that address's fields. */
  lemma SaveParsedAddress(s: FormState, a: Address)
    requires WellFormed(a) && TruthyInt(s.userId)
    ensures SaveAddress(ParseAddress(s, OneLine(a)))
         == Submit(AddressPayload(s.userId.value, a.street, a.exteriorNumber, Some(a.interiorNumber),
                                  a.neighborhood, a.postalCode, a.city, a.state, a.country,
                                  Optional(s.address.references)))
  {
    var t := ParseAddress(s, OneLine(a));
    ParseOneLine(s, a);
    SaveWellFormed(t, a.(references := s.address.references));
  }
}

=== FILE: admin.dfy ===
/** The admin product list: filters that compose by conjunction and are
    always recomputed from the full list, the status statistics, the
    create-form validation, the status toggle and the category-name lookup.
    The product service is abstract: its answers are inputs. */
module AdminProducts {
  import opened JsValues
  import opened Text

  datatype Product = Product(
    id: int,                      // id_producto
    name: Option<string>,         // nombre, may be null
    description: Option<string>,  // descripcion, may be null
    categoryId: int,              // id_categoria
    status: string                // estado
  )

  datatype Category = Category(id: int, name: Option<string>)

  /** The three filter inputs; an empty text or status and a missing category
      mean "no filter". */
  datatype Filters = Filters(query: string, category: Option<int>, status: string)

  const NoFilters := Filters("", None, "")

  datatype Stats = Stats(total: nat, active: nat, inactive: nat)

  datatype AdminState = AdminState(
    products: seq<Product>,     // productos, the full list
    shown: seq<Product>,        // productosFiltrados
    categories: seq<Category>,
    filters: Filters,
    stats: Stats
  )

  // ===== Filtering =====

  /** The elements of `xs` satisfying `p`, in their original order. */
  function Keep(xs: seq<Product>, p: Product -> bool): (r: seq<Product>)
    ensures |r| <= |xs|
    ensures forall x | x in r :: x in xs && p(x)
    ensures forall x | x in xs && p(x) :: x in r
  {
    if |xs| == 0 then []
    else
      assert forall x | x in xs[1..] :: x in xs;
      assert forall x | x in xs :: x == xs[0] || x in xs[1..];
      (if p(xs[0]) then [xs[0]] else []) + Keep(xs[1..], p)
  }

  /** `r` is `xs` with some elements left out and the rest in order. */
  predicate IsSubsequence(r: seq<Product>, xs: seq<Product>)
    decreases |xs|
  {
    if |r| == 0 then true
    else if |xs| == 0 then false
    else if r[0] == xs[0] then IsSubsequence(r[1..], xs[1..])
    else IsSubsequence(r, xs[1..])
  }

  /** A subsequence of the tail is a subsequence of the whole sequence. */
  lemma {:induction false} SubsequenceOfTail(r: seq<Product>, xs: seq<Product>)
    requires |xs| > 0 && IsSubsequence(r, xs[1..])
    ensures IsSubsequence(r, xs)
    decreases |xs|, 1
  {
    if |r| > 0 && r[0] == xs[0] {
      SubsequenceDropHead(r, xs[1..]);
    }
  }

  /** Dropping the first element of a subsequence keeps it a subsequence. */
  lemma {:induction false} SubsequenceDropHead(r: seq<Product>, xs: seq<Product>)
    requires |r| > 0 && IsSubsequence(r, xs)
    ensures IsSubsequence(r[1..], xs)
    decreases |xs|, 2
  {
    if r[0] == xs[0] {
      SubsequenceOfTail(r[1..], xs);
    } else {
      SubsequenceDropHead(r, xs[1..]);
      SubsequenceOfTail(r[1..], xs);
    }
  }

  /** Keeping elements preserves their order. */
  lemma {:induction false} KeepIsSubsequence(xs: seq<Product>, p: Product -> bool)
    ensures IsSubsequence(Keep(xs, p), xs)
  {
    if |xs| > 0 {
      KeepIsSubsequence(xs[1..], p);
      var rest := Keep(xs[1..], p);
      if p(xs[0]) {
        assert Keep(xs, p) == [xs[0]] + rest;
        assert ([xs[0]] + rest)[1..] == rest;
      } else {
        assert Keep(xs, p) == rest;
        SubsequenceOfTail(rest, xs);
      }
    }
  }

  /** Filtering twice is filtering once by the conjunction. */
  lemma {:induction false} KeepKeep(xs: seq<Product>, p: Product -> bool, q: Product -> bool)
    ensures Keep(Keep(xs, p), q) == Keep(xs, (x: Product) => p(x) && q(x))
  {
    if |xs| > 0 {
      var both := (x: Product) => p(x) && q(x);
      KeepKeep(xs[1..], p, q);
      var rest := Keep(xs[1..], p);
      assert Keep(xs, both) == (if both(xs[0]) then [xs[0]] else []) + Keep(xs[1..], both);
      if p(xs[0]) {
        assert Keep(xs, p) == [xs[0]] + rest;
        assert ([xs[0]] + rest)[1..] == rest;
        assert Keep([xs[0]] + rest, q) == (if q(xs[0]) then [xs[0]] else []) + Keep(rest, q);
      } else {
        assert Keep(xs, p) == rest;
      }
    }
  }

  /** `Keep` only looks at the values of its predicate on the list. */
  lemma {:induction false} KeepCongruent(xs: seq<Product>, p: Product -> bool, q: Product -> bool)
    requires forall x | x in xs :: p(x) == q(x)
    ensures Keep(xs, p) == Keep(xs, q)
  {
    if |xs| > 0 {
      assert forall x | x in xs[1..] :: x in xs;
      KeepCongruent(xs[1..], p, q);
    }
  }

  /** Keeping everything keeps the list. */
  lemma {:induction false} KeepAll(xs: seq<Product>, p: Product -> bool)
    requires forall x | x in xs :: p(x)
    ensures Keep(xs, p) == xs
  {
    if |xs| > 0 {
      assert forall x | x in xs[1..] :: x in xs;
      KeepAll(xs[1..], p);
    }
  }

  /** The text filter: the lower-cased name or description contains the
      lower-cased query; a blank query lets everything through. */
  predicate MatchesQuery(p: Product, query: string) {
    || IsBlank(query)
    || (p.name.Some? && Contains(Lower(p.name.value), Lower(query)))
    || (p.description.Some? && Contains(Lower(p.description.value), Lower(query)))
  }

  predicate MatchesCategory(p: Product, category: Option<int>) {
    category.None? || p.categoryId == category.value
  }

  predicate MatchesStatus(p: Product, status: string) {
    status == "" || p.status == status
  }

  /** A product passes the filters when it meets every active one. */
  predicate Matches(p: Product, f: Filters) {
    MatchesQuery(p, f.query) && MatchesCategory(p, f.category) && MatchesStatus(p, f.status)
  }

  function ByText(ps: seq<Product>, query: string): seq<Product> {
    if !IsBlank(query) then Keep(ps, (p: Product) => MatchesQuery(p, query)) else ps
  }

  function ByCategory(ps: seq<Product>, category: Option<int>): seq<Product> {
    if category.Some? then Keep(ps, (p: Product) => MatchesCategory(p, category)) else ps
  }

  function ByStatus(ps: seq<Product>, status: string): seq<Product> {
    if status != "" then Keep(ps, (p: Product) => MatchesStatus(p, status)) else ps
  }

  /** `filtrarProductos` on a list: the text filter, then the category
      filter, then the status filter, each applied only when active. A
      product is shown exactly when it is in the list and meets every
      active filter. */
  function FilterProducts(products: seq<Product>, f: Filters): (r: seq<Product>)
    ensures forall x | x in r :: x in products && Matches(x, f)
    ensures forall x | x in products && Matches(x, f) :: x in r
  {
    ByStatus(ByCategory(ByText(products, f.query), f.category), f.status)
  }

  /** A single pass keeping the products that meet every active filter. */
  function FilterReference(products: seq<Product>, f: Filters): seq<Product> {
    Keep(products, (p: Product) => Matches(p, f))
  }

  lemma ByTextIsKeep(ps: seq<Product>, query: string)
    ensures ByText(ps, query) == Keep(ps, (p: Product) => MatchesQuery(p, query))
  {
    if IsBlank(query) { KeepAll(ps, (p: Product) => MatchesQuery(p, query)); }
  }

  lemma ByCategoryIsKeep(ps: seq<Product>, category: Option<int>)
    ensures ByCategory(ps, category) == Keep(ps, (p: Product) => MatchesCategory(p, category))
  {
    if category.None? { KeepAll(ps, (p: Product) => MatchesCategory(p, category)); }
  }

  lemma ByStatusIsKeep(ps: seq<Product>, status: string)
    ensures ByStatus(ps, status) == Keep(ps, (p: Product) => MatchesStatus(p, status))
  {
    if status == "" { KeepAll(ps, (p: Product) => MatchesStatus(p, status)); }
  }

  /** The staged filter equals the single conjunctive pass over the full
      list, and is therefore an order-preserving subsequence of it. */
  lemma FilterIsConjunction(products: seq<Product>, f: Filters)
    ensures FilterProducts(products, f) == FilterReference(products, f)
    ensures IsSubsequence(FilterProducts(products, f), products)
  {
    var pq := (p: Product) => MatchesQuery(p, f.query);
    var pc := (p: Product) => MatchesCategory(p, f.category);
    var ps := (p: Product) => MatchesStatus(p, f.status);
    var t := ByText(products, f.query);
    ByTextIsKeep(products, f.query);
    var c := ByCategory(t, f.category);
    ByCategoryIsKeep(t, f.category);
    ByStatusIsKeep(c, f.status);
    KeepKeep(products, pq, pc);
    var qc := (x: Product) => pq(x) && pc(x);
    KeepKeep(products, qc, ps);
    KeepCongruent(products, (x: Product) => qc(x) && ps(x), (p: Product) => Matches(p, f));
    KeepIsSubsequence(products, (p: Product) => Matches(p, f));
  }

  /** Filtering an already filtered list with the same filters changes nothing. */
  lemma FilterIdempotent(products: seq<Product>, f: Filters)
    ensures FilterProducts(FilterProducts(products, f), f) == FilterProducts(products, f)
  {
    var m := (p: Product) => Matches(p, f);
    FilterIsConjunction(products, f);
    FilterIsConjunction(FilterProducts(products, f), f);
    KeepKeep(products, m, m);
    KeepCongruent(products, (x: Product) => m(x) && m(x), m);
  }

  /** With no active filter every product is shown. */
  lemma NoFiltersShowAll(products: seq<Product>)
    ensures FilterProducts(products, NoFilters) == products
  {
    assert IsBlank("");
  }

  /** `filtrarProductos`: the shown list is recomputed from the full list
      with the current filters; nothing else changes. */
  function ApplyFilters(s: AdminState): (r: AdminState)
    ensures r.shown == FilterReference(s.products, s.filters)
    ensures r.(shown := s.shown) == s
  {
    FilterIsConjunction(s.products, s.filters);
    s.(shown := FilterProducts(s.products, s.filters))
  }

  /** Filters are not cumulative: whatever filters were applied before, the
      list shown after applying new ones is the one the new filters give on
      the full list. */
  lemma FiltersNotCumulative(s: AdminState, f: Filters)
    ensures ApplyFilters(ApplyFilters(s).(filters := f)).shown == FilterReference(s.products, f)
    ensures ApplyFilters(ApplyFilters(s)) == ApplyFilters(s)
  {
  }

  /** `limpiarFiltros`: clears the three filters and shows the full list,
      which is what filtering with no filter shows. */
  function ClearFilters(s: AdminState): (r: AdminState)
    ensures r.filters == NoFilters && r.shown == s.products
    ensures r.products == s.products && r.stats == s.stats && r.categories == s.categories
    ensures ApplyFilters(r) == r
  {
    var r := s.(filters := NoFilters, shown := s.products);
    NoFiltersShowAll(s.products);
    FilterIsConjunction(s.products, NoFilters);
    assert ApplyFilters(r).shown == r.shown;
    r
  }

  // ===== Statistics =====

  /** The number of products with the given status. */
  function CountStatus(ps: seq<Product>, status: string): (n: nat)
    ensures n <= |ps|
  {
    if |ps| == 0 then 0
    else (if ps[0].status == status then 1 else 0) + CountStatus(ps[1..], status)
  }

  /** `calcularEstadisticas`. */
  function ComputeStats(ps: seq<Product>): (st: Stats)
    ensures st.total == |ps|
    ensures st.active == CountStatus(ps, "activo") && st.inactive == CountStatus(ps, "inactivo")
    ensures st.active + st.inactive <= st.total
  {
    CountsOfDistinctStatuses(ps, "activo", "inactivo");
    Stats(|ps|, CountStatus(ps, "activo"), CountStatus(ps, "inactivo"))
  }

  /** Products with two different statuses are counted apart, so the two
      counts never add up to more than the list. */
  lemma {:induction false} CountsOfDistinctStatuses(ps: seq<Product>, a: string, b: string)
    requires a != b
    ensures CountStatus(ps, a) + CountStatus(ps, b) <= |ps|
  {
    if |ps| > 0 {
      CountsOfDistinctStatuses(ps[1..], a, b);
    }
  }

  /** The count of a status is the size of the list of products having it. */
  lemma {:induction false} CountIsKeptLength(ps: seq<Product>, status: string)
    ensures CountStatus(ps, status) == |Keep(ps, (p: Product) => p.status == status)|
  {
    if |ps| > 0 {
      CountIsKeptLength(ps[1..], status);
    }
  }

  // ===== Creating =====

  datatype ProductForm = ProductForm(
    name: string,
    description: string,
    price: real,
    stock: int,
    categoryId: int,
    condition: string
  )

  const NameRequired := "El nombre es obligatorio"
  const PriceNotPositive := "El precio debe ser mayor a 0"
  const StockNegative := "El stock no puede ser negativo"
  const CategoryRequired := "Debes seleccionar una categoría"
  const ImageRequired := "Por favor selecciona una imagen"

  /** `validarFormularioCrear`: `None` when the form is valid, else the
      message of the first failing check (name, price, stock, category). */
  function ValidateCreate(f: ProductForm): (err: Option<string>)
    ensures err.None? <==> !IsBlank(f.name) && f.price > 0.0 && f.stock >= 0 && f.categoryId != 0
    ensures IsBlank(f.name) ==> err == Some(NameRequired)
    ensures !IsBlank(f.name) && f.price <= 0.0 ==> err == Some(PriceNotPositive)
    ensures !IsBlank(f.name) && f.price > 0.0 && f.stock < 0 ==> err == Some(StockNegative)
    ensures !IsBlank(f.name) && f.price > 0.0 && f.stock >= 0 && f.categoryId == 0 ==> err == Some(CategoryRequired)
  {
    if Trim(f.name) == "" then Some(NameRequired)
    else if f.price <= 0.0 then Some(PriceNotPositive)
    else if f.stock < 0 then Some(StockNegative)
    else if f.categoryId == 0 then Some(CategoryRequired)
    else None
  }

  /** A selected image file, opaque to the model. */
  datatype ImageFile = ImageFile(fileName: string)

  /** The multipart fields of a new product; new products are always active. */
  datatype NewProduct = NewProduct(form: ProductForm, image: ImageFile, status: string)

  /** The outcome of `crearProducto` before the service answers: an alert
      and no request, or the create request. */
  datatype CreateOutcome = Rejected(message: string) | Submit(product: NewProduct)

  /** `crearProducto`: the form is validated first, then an image is
      required; only a valid form with an image is submitted, as an active
      product. */
  function CreateProduct(f: ProductForm, image: Option<ImageFile>): (r: CreateOutcome)
    ensures r.Submit? <==> ValidateCreate(f).None? && image.Some?
    ensures ValidateCreate(f).Some? ==> r == Rejected(ValidateCreate(f).value)
    ensures ValidateCreate(f).None? && image.None? ==> r == Rejected(ImageRequired)
    ensures r.Submit? ==> r.product == NewProduct(f, image.value, "activo")
  {
    match ValidateCreate(f)
    case Some(msg) => Rejected(msg)
    case None =>
      if image.None? then Rejected(ImageRequired) else Submit(NewProduct(f, image.value, "activo"))
  }

  // ===== Status toggle =====

  /** The status `cambiarEstado` asks for: active products become inactive
      and every other product becomes active. */
  function ToggledStatus(status: string): (r: string)
    ensures r != status
    ensures r == "activo" || r == "inactivo"
    ensures status == "activo" <==> r == "inactivo"
  {
    if status == "activo" then "inactivo" else "activo"
  }

  /** On the two statuses the component writes, toggling twice is the identity. */
  lemma ToggleInvolution(status: string)
    requires status == "activo" || status == "inactivo"
    ensures ToggledStatus(ToggledStatus(status)) == status
  {
  }

  /** The status request of `cambiarEstado`, made only after confirmation. */
  function ChangeStatusRequest(p: Product, confirmed: bool): (r: Option<(int, string)>)
    ensures r.Some? <==> confirmed
    ensures r.Some? ==> r.value == (p.id, ToggledStatus(p.status))
  {
    if confirmed then Some((p.id, ToggledStatus(p.status))) else None
  }

  /** Sets the status of every product carrying the given id. */
  function SetStatus(ps: seq<Product>, id: int, status: string): (r: seq<Product>)
    ensures |r| == |ps|
    ensures forall i | 0 <= i < |ps| :: r[i] == (if ps[i].id == id then ps[i].(status := status) else ps[i])
  {
    seq(|ps|, i requires 0 <= i < |ps| => if ps[i].id == id then ps[i].(status := status) else ps[i])
  }

  /** The answer to the status request. On success the product (the same
      object in the full and the shown list, identified here by its id)
      takes the new status and the statistics are recomputed from the full
      list; on failure nothing changes. */
  function StatusChanged(s: AdminState, id: int, status: string, ok: bool): (r: AdminState)
    ensures !ok ==> r == s
    ensures ok ==> r.stats == ComputeStats(r.products) && r.stats.total == |s.products|
    ensures ok ==> forall i | 0 <= i < |r.products| ::
      (s.products[i].id == id ==> r.products[i].status == status) &&
      (s.products[i].id != id ==> r.products[i] == s.products[i])
    ensures ok ==> r.products == SetStatus(s.products, id, status) && r.shown == SetStatus(s.shown, id, status)
    ensures r.filters == s.filters && r.categories == s.categories
  {
    if !ok then s
    else
      var ps := SetStatus(s.products, id, status);
      s.(products := ps, shown := SetStatus(s.shown, id, status), stats := ComputeStats(ps))
  }

  /** A confirmed toggle that succeeds, followed by a second one that also
      succeeds, gives every product its old status back. */
  lemma StatusChangeUndone(s: AdminState, id: int, status: string)
    requires status == "activo" || status == "inactivo"
    requires forall i | 0 <= i < |s.products| && s.products[i].id == id :: s.products[i].status == status
    requires forall i | 0 <= i < |s.shown| && s.shown[i].id == id :: s.shown[i].status == status
    ensures var once := StatusChanged(s, id, ToggledStatus(status), true);
            var twice := StatusChanged(once, id, ToggledStatus(ToggledStatus(status)), true);
            twice.products == s.products && twice.shown == s.shown
  {
    ToggleInvolution(status);
    var once := StatusChanged(s, id, ToggledStatus(status), true);
    var twice := StatusChanged(once, id, status, true);
    assert forall i | 0 <= i < |s.products| :: twice.products[i] == s.products[i];
    assert forall i | 0 <= i < |s.shown| :: twice.shown[i] == s.shown[i];
  }

  /** `eliminarProducto`: the delete request, made only after confirmation. */
  function DeleteRequest(p: Product, confirmed: bool): (r: Option<int>)
    ensures r.Some? <==> confirmed
    ensures r.Some? ==> r.value == p.id
  {
    if confirmed then Some(p.id) else None
  }

  /** `eliminarProducto` to the end: without confirmation nothing is sent;
      a failed delete only alerts; a successful one reloads the products,
      whose answer is `reload`. */
  function DeleteFlow(s: AdminState, p: Product, confirmed: bool, deleted: bool, reload: Option<seq<Product>>): (r: AdminState)
    ensures !confirmed || !deleted ==> r == s
    ensures confirmed && deleted ==> r == ProductsLoaded(s, reload)
  {
    match DeleteRequest(p, confirmed)
    case None => s
    case Some(_) => if deleted then ProductsLoaded(s, reload) else s
  }

  /** The product list changes through a delete only when the user
      confirmed, the server deleted the product and the reload answered. */
  lemma DeleteNeedsConfirmation(s: AdminState, p: Product, confirmed: bool, deleted: bool, reload: Option<seq<Product>>)
    ensures DeleteFlow(s, p, confirmed, deleted, reload).products != s.products ==> confirmed && deleted && reload.Some?
    ensures confirmed && deleted && reload.Some? && (forall i | 0 <= i < |reload.value| :: reload.value[i].id != p.id) ==>
      forall i | 0 <= i < |DeleteFlow(s, p, confirmed, deleted, reload).shown| :: DeleteFlow(s, p, confirmed, deleted, reload).shown[i].id != p.id
  {
  }

  /** The answer to `cargarProductos`. On success the full list and the shown
      list both become the received list (the filter inputs are kept but not
      applied) and the statistics are recomputed; on failure nothing changes. */
  function ProductsLoaded(s: AdminState, reply: Option<seq<Product>>): (r: AdminState)
    ensures reply.None? ==> r == s
    ensures reply.Some? ==> && r.products == reply.value && r.shown == reply.value
                            && r.stats == ComputeStats(reply.value)
                            && r.filters == s.filters && r.categories == s.categories
  {
    match reply
    case None => s
    case Some(ps) => s.(products := ps, shown := ps, stats := ComputeStats(ps))
  }

  /** After a reload the shown list is the one no filter gives, while the
      filter inputs keep whatever they held. */
  lemma ReloadShowsUnfiltered(s: AdminState, ps: seq<Product>)
    ensures ProductsLoaded(s, Some(ps)).shown == FilterProducts(ps, NoFilters)
    ensures ProductsLoaded(s, Some(ps)).filters == s.filters
  {
    var r := ProductsLoaded(s, Some(ps));
    assert r.shown == ps && r.filters == s.filters;
    NoFiltersShowAll(ps);
  }

  // ===== Category names =====

  /** The first category with the given id. */
  function FindCategory(cs: seq<Category>, id: int): (r: Option<nat>)
    ensures r.Some? ==> r.value < |cs| && cs[r.value].id == id && forall j | 0 <= j < r.value :: cs[j].id != id
    ensures r.None? ==> forall j | 0 <= j < |cs| :: cs[j].id != id
  {
    if |cs| == 0 then None
    else if cs[0].id == id then Some(0)
    else match FindCategory(cs[1..], id)
      case None => None
      case Some(k) => Some(k + 1)
  }

  const NoCategory := "Sin categoría"

  /** `getNombreCategoria`: the name of the first category with that id, or
      `Sin categoría` when there is none or its name is empty. */
  function CategoryName(cs: seq<Category>, id: int): (name: string)
    ensures (forall j | 0 <= j < |cs| :: cs[j].id != id) ==> name == NoCategory
    ensures forall k | 0 <= k < |cs| && cs[k].id == id && (forall j | 0 <= j < k :: cs[j].id != id) ::
      name == StrOr(cs[k].name, NoCategory)
    ensures name != ""
  {
    match FindCategory(cs, id)
    case None => NoCategory
    case Some(k) => StrOr(cs[k].name, NoCategory)
  }
}

=== FILE: assets.dfy ===
/** Where the front-end finds images: the back-end host that serves the
    `/uploads` directory and the bundled placeholder images. */
module Assets {
  /** The back-end origin; API paths and uploaded files hang off it. */
  const ApiHost := "http://localhost:8000"

  /** Placeholder shown for a product without a usable image. */
  const DefaultProductImage := "assets/img/producto-default.jpg"

  /** Placeholder shown for a user without a usable picture. */
  const DefaultProfileImage := "assets/img/profile.jpeg"
}

=== FILE: cart.dfy ===
/** The shopping cart view-model: quantity guards, the checkout modal, the
    two purchase paths (saved payment method and new card) and the helpers
    that pick a card brand and a product image.

    Every HTTP call, payment-provider call, `alert`, navigation and timer is
    an `Effect` value the transition returns; every answer to such a call is
    an explicit input of the transition that handles it. */
module Cart {
  import opened JsValues
  import opened Text
  import opened Assets

  datatype CartItem = CartItem(
    lineId: int,              // id_carrito
    productId: int,           // id_producto
    quantity: int,            // cantidad
    unitPrice: real,          // precio_unitario
    available: bool,          // producto_disponible
    availableStock: int       // producto_cantidad_disponible
  )

  datatype CartSummary = CartSummary(
    userId: int,
    totalItems: int,
    totalProducts: int,       // total_productos
    subtotal: real,
    items: seq<CartItem>
  )

  datatype Address = Address(id: int, isPrimary: bool)

  datatype PaymentMethod = PaymentMethod(
    id: int,
    cardType: string,
    lastDigits: string,
    bank: Option<string>,     // banco, optional in the payload
    isPrimary: bool
  )

  /** The blocking messages the component shows with `alert`. */
  datatype Notice =
    | StockLimit(available: int)   // "Solo hay N unidades disponibles"
    | QuantityUpdateFailed
    | NoAvailableProducts
    | AddressRequired
    | MethodRequired
    | CartEmpty
    | PurchaseDone
    | PaymentDone

  datatype Effect =
    | Alert(notice: Notice)
    | UpdateQuantity(lineId: int, userId: int, quantity: int)
    | ReloadCart
    | LoadAddresses
    | LoadPaymentMethods
    | InitCardElement
    | DestroyCardElement
    | StartPurchaseTimer
    | CreatePaymentIntent(amount: real, userId: int, productId: int, quantity: int)
    | ConfirmCardPayment(clientSecret: string)
    | ConfirmOrder(intentId: string, userId: int, productId: int, quantity: int, total: real, addressId: int)
    | ClearCart(userId: int)
    | NotifyCartChanged
    | Navigate(path: string)

  datatype CheckoutState = CheckoutState(
    userId: int,
    cart: Option<CartSummary>,
    modalVisible: bool,                  // modalCheckoutVisible
    addresses: seq<Address>,
    methods: seq<PaymentMethod>,
    selectedAddress: Option<Address>,
    selectedMethod: Option<PaymentMethod>,
    processingPayment: bool,             // procesandoPago
    showCardForm: bool,                  // mostrarFormularioStripe
    processingCard: bool,                // procesandoStripe
    cardError: string,                   // errorStripe
    cardReady: bool                      // stripeInicializado
  )

  /** A transition's new state together with the effects it issues, in order. */
  datatype Step = Step(state: CheckoutState, effects: seq<Effect>)

  /** The answer to one asynchronous call: a value, or a rejection that may
      carry an error `message`. */
  datatype Reply = Ok(value: string) | Failed(message: Option<string>)

  // ===== Quantity guards =====

  /** `incrementarCantidad`: at or above the stock ceiling only a warning is
      shown; otherwise exactly one update request asks for one more unit,
      which never exceeds the available stock. */
  function Increment(userId: int, item: CartItem): (effects: seq<Effect>)
    ensures item.quantity >= item.availableStock ==>
      effects == [Alert(StockLimit(item.availableStock))]
    ensures item.quantity < item.availableStock ==>
      && |effects| == 1 && effects[0].UpdateQuantity?
      && effects[0].lineId == item.lineId && effects[0].userId == userId
      && effects[0].quantity == item.quantity + 1
      && effects[0].quantity <= item.availableStock
    ensures forall e | e in effects :: e.UpdateQuantity? ==> e.quantity > item.quantity
  {
    if item.quantity >= item.availableStock then [Alert(StockLimit(item.availableStock))]
    else [UpdateQuantity(item.lineId, userId, item.quantity + 1)]
  }

  /** `decrementarCantidad`: at a quantity of 1 or less nothing happens;
      otherwise exactly one update request asks for one unit less, which is
      still at least 1. */
  function Decrement(userId: int, item: CartItem): (effects: seq<Effect>)
    ensures item.quantity <= 1 ==> effects == []
    ensures item.quantity > 1 ==>
      && |effects| == 1 && effects[0].UpdateQuantity?
      && effects[0].lineId == item.lineId && effects[0].userId == userId
      && effects[0].quantity == item.quantity - 1
      && effects[0].quantity >= 1
    ensures forall e | e in effects :: e.UpdateQuantity? ==> 1 <= e.quantity < item.quantity
  {
    if item.quantity <= 1 then []
    else [UpdateQuantity(item.lineId, userId, item.quantity - 1)]
  }

  /** The answer to a quantity update: the cart is reloaded from the server
      on success and an alert is shown on failure; nothing is patched locally. */
  function QuantityUpdated(ok: bool): (effects: seq<Effect>)
    ensures ok <==> ReloadCart in effects
    ensures |effects| == 1
    ensures !ok ==> effects == [Alert(QuantityUpdateFailed)]
  {
    if ok then [ReloadCart] else [Alert(QuantityUpdateFailed)]
  }

  /** The line as the server holds it once the effects of a guard are
      carried out: an update request for this line sets its quantity, and
      anything else leaves it as it is. */
  function Applied(item: CartItem, effects: seq<Effect>): CartItem {
    if |effects| == 1 && effects[0].UpdateQuantity? && effects[0].lineId == item.lineId
    then item.(quantity := effects[0].quantity)
    else item
  }

  /** Inside the range both guards allow, one more unit followed by one
      less (or the other way round) gives the line back. */
  lemma IncrementDecrementInverse(userId: int, item: CartItem)
    ensures 1 <= item.quantity < item.availableStock ==>
      var up := Applied(item, Increment(userId, item));
      Applied(up, Decrement(userId, up)) == item
    ensures 1 < item.quantity <= item.availableStock ==>
      var down := Applied(item, Decrement(userId, item));
      Applied(down, Increment(userId, down)) == item
  {
  }

  /** The two guards keep a quantity between 1 and the available stock. */
  lemma QuantityStaysInRange(userId: int, item: CartItem)
    requires 1 <= item.quantity <= item.availableStock
    ensures var up := Applied(item, Increment(userId, item));
      1 <= up.quantity <= item.availableStock
    ensures var down := Applied(item, Decrement(userId, item));
      1 <= down.quantity <= item.availableStock
  {
  }

  // ===== Checkout modal =====

  /** `items.filter(item => item.producto_disponible)`. */
  function AvailableItems(items: seq<CartItem>): (r: seq<CartItem>)
    ensures |r| > 0 <==> exists i | 0 <= i < |items| :: items[i].available
    ensures forall x | x in r :: x in items && x.available
  {
    if |items| == 0 then []
    else
      var rest := AvailableItems(items[1..]);
      assert forall i | 1 <= i < |items| :: items[i] == items[1..][i - 1];
      if items[0].available then [items[0]] + rest else rest
  }

  predicate HasAvailableItem(cart: Option<CartSummary>) {
    cart.Some? && exists i | 0 <= i < |cart.value.items| :: cart.value.items[i].available
  }

  /** `procederAlPago`: the modal opens, and addresses and payment methods
      are requested, only when the cart exists and holds an available item;
      otherwise the state is unchanged and an alert is shown. */
  function ProceedToCheckout(s: CheckoutState): (r: Step)
    ensures r.state.modalVisible <==> s.modalVisible || HasAvailableItem(s.cart)
    ensures HasAvailableItem(s.cart) ==>
      r.state == s.(modalVisible := true) && r.effects == [LoadAddresses, LoadPaymentMethods]
    ensures !HasAvailableItem(s.cart) ==>
      r.state == s && r.effects == [Alert(NoAvailableProducts)]
  {
    if s.cart.None? || |AvailableItems(s.cart.value.items)| == 0 then
      Step(s, [Alert(NoAvailableProducts)])
    else
      Step(s.(modalVisible := true), [LoadAddresses, LoadPaymentMethods])
  }

  /** `cargarDireccionesUsuario` answer: the list replaces the local one and
      its first entry becomes the selection when there is one; a failure
      empties the list and keeps the selection. */
  function AddressesLoaded(s: CheckoutState, reply: Option<seq<Address>>): (r: CheckoutState)
    ensures reply.Some? ==> r.addresses == reply.value
    ensures reply.None? ==> r.addresses == []
    ensures reply.Some? && |reply.value| > 0 ==> r.selectedAddress == Some(reply.value[0])
    ensures reply.None? || |reply.value| == 0 ==> r.selectedAddress == s.selectedAddress
    ensures r.(addresses := s.addresses, selectedAddress := s.selectedAddress) == s
  {
    match reply
    case None => s.(addresses := [])
    case Some(ds) =>
      if |ds| > 0 then s.(addresses := ds, selectedAddress := Some(ds[0]))
      else s.(addresses := ds)
  }

  /** `cargarMetodosPagoUsuario` answer: the list is replaced, or emptied on failure. */
  function MethodsLoaded(s: CheckoutState, reply: Option<seq<PaymentMethod>>): (r: CheckoutState)
    ensures r.methods == (if reply.Some? then reply.value else [])
    ensures r.(methods := s.methods) == s
  {
    s.(methods := if reply.Some? then reply.value else [])
  }

  /** The teardown of the hosted card element: requested only when one is
      mounted, after which none is. */
  function TearDownCard(s: CheckoutState): (r: Step)
    ensures !r.state.cardReady
    ensures r.effects == (if s.cardReady then [DestroyCardElement] else [])
    ensures r.state.(cardReady := s.cardReady) == s
  {
    if s.cardReady then Step(s.(cardReady := false), [DestroyCardElement]) else Step(s, [])
  }

  /** `cerrarModalCheckout`: hides the modal, drops both selections, hides
      the card form, clears the card error and tears down a mounted card
      element; the cart, the loaded lists and the processing flags are kept. */
  function CloseCheckout(s: CheckoutState): (r: Step)
    ensures !r.state.modalVisible && !r.state.showCardForm && !r.state.cardReady
    ensures r.state.selectedAddress.None? && r.state.selectedMethod.None?
    ensures r.state.cardError == ""
    ensures r.state.cart == s.cart && r.state.userId == s.userId
    ensures r.state.addresses == s.addresses && r.state.methods == s.methods
    ensures r.state.processingPayment == s.processingPayment
    ensures r.state.processingCard == s.processingCard
    ensures r.effects == (if s.cardReady then [DestroyCardElement] else [])
  {
    TearDownCard(s.(modalVisible := false, selectedAddress := None, selectedMethod := None,
                    showCardForm := false, cardError := ""))
  }

  /** `seleccionarDireccion`. */
  function SelectAddress(s: CheckoutState, a: Address): (r: CheckoutState)
    ensures r.selectedAddress == Some(a)
    ensures r.(selectedAddress := s.selectedAddress) == s
  {
    s.(selectedAddress := Some(a))
  }

  /** `seleccionarMetodoPago`: choosing a saved method leaves the new-card
      path, tearing down its card element if one is mounted. */
  function SelectMethod(s: CheckoutState, m: PaymentMethod): (r: Step)
    ensures r.state.selectedMethod == Some(m)
    ensures !r.state.showCardForm
    ensures s.showCardForm ==> !r.state.cardReady
    ensures !s.showCardForm ==> r.state == s.(selectedMethod := Some(m)) && r.effects == []
    ensures DestroyCardElement in r.effects <==> s.showCardForm && s.cardReady
    ensures r.state.(selectedMethod := s.selectedMethod, showCardForm := s.showCardForm, cardReady := s.cardReady) == s
  {
    var s1 := s.(selectedMethod := Some(m));
    if s.showCardForm then TearDownCard(s1.(showCardForm := false)) else Step(s1, [])
  }

  /** `pagarConNuevaTarjeta`: drops the saved-method selection, shows the
      card form and asks for a card element to be mounted. */
  function PayWithNewCard(s: CheckoutState): (r: Step)
    ensures r.state.selectedMethod.None? && r.state.showCardForm
    ensures r.effects == [InitCardElement]
    ensures r.state.(selectedMethod := s.selectedMethod, showCardForm := s.showCardForm) == s
  {
    Step(s.(selectedMethod := None, showCardForm := true), [InitCardElement])
  }

  const CardFormLoadError := "Error al cargar el formulario de pago"

  /** The outcome of mounting the card element. */
  function CardElementMounted(s: CheckoutState, ok: bool): (r: CheckoutState)
    ensures ok ==> r == s.(cardReady := true)
    ensures !ok ==> r == s.(cardError := CardFormLoadError) && r.cardError != ""
  {
    if ok then s.(cardReady := true) else s.(cardError := CardFormLoadError)
  }

  /** `cancelarStripe`: hides the card form, clears its error and tears down
      a mounted card element. */
  function CancelCardForm(s: CheckoutState): (r: Step)
    ensures !r.state.showCardForm && r.state.cardError == "" && !r.state.cardReady
    ensures r.state.(showCardForm := s.showCardForm, cardError := s.cardError, cardReady := s.cardReady) == s
    ensures DestroyCardElement in r.effects <==> s.cardReady
  {
    TearDownCard(s.(showCardForm := false, cardError := ""))
  }

  /** No checkout in progress: the modal is hidden and holds no selection,
      no card form, no card error and no mounted card element. */
  predicate CheckoutClosed(s: CheckoutState) {
    && !s.modalVisible && s.selectedAddress.None? && s.selectedMethod.None?
    && !s.showCardForm && s.cardError == "" && !s.cardReady
  }

  /** Opening the checkout, loading both lists and closing it again returns
      to the closed state: only the loaded lists remain, and nothing is torn
      down since no card element was mounted. */
  lemma CheckoutOpenClose(s: CheckoutState, addresses: Option<seq<Address>>, methods: Option<seq<PaymentMethod>>)
    requires CheckoutClosed(s) && HasAvailableItem(s.cart)
    ensures var loaded := MethodsLoaded(AddressesLoaded(ProceedToCheckout(s).state, addresses), methods);
      && loaded.modalVisible
      && CloseCheckout(loaded) == Step(s.(addresses := loaded.addresses, methods := loaded.methods), [])
  {
  }

  /** Opening the card form and cancelling it, whether or not the card
      element could be mounted, leaves only the saved method deselected; the
      element is torn down exactly when it was mounted. */
  lemma CardFormOpenCancel(s: CheckoutState, mounted: bool)
    requires !s.showCardForm && s.cardError == "" && !s.cardReady
    ensures var cancelled := CancelCardForm(CardElementMounted(PayWithNewCard(s).state, mounted));
      && cancelled.state == s.(selectedMethod := None)
      && (DestroyCardElement in cancelled.effects <==> mounted)
  {
  }

  // ===== Purchase with a saved payment method =====

  /** `confirmarCompra`: the guards are checked in order (address, payment
      method, non-empty cart) and the first failing one only shows its alert.
      When all pass the processing flag is set and the 2-second purchase
      timer is started. */
  function ConfirmPurchase(s: CheckoutState): (r: Step)
    ensures s.selectedAddress.None? ==> r == Step(s, [Alert(AddressRequired)])
    ensures s.selectedAddress.Some? && s.selectedMethod.None? ==> r == Step(s, [Alert(MethodRequired)])
    ensures s.selectedAddress.Some? && s.selectedMethod.Some? && (s.cart.None? || |s.cart.value.items| == 0) ==>
      r == Step(s, [Alert(CartEmpty)])
    ensures StartPurchaseTimer in r.effects <==>
      s.selectedAddress.Some? && s.selectedMethod.Some? && s.cart.Some? && |s.cart.value.items| > 0
    ensures StartPurchaseTimer in r.effects ==> r.state == s.(processingPayment := true) && |r.effects| == 1
    ensures StartPurchaseTimer !in r.effects ==> r.state == s
  {
    if s.selectedAddress.None? then Step(s, [Alert(AddressRequired)])
    else if s.selectedMethod.None? then Step(s, [Alert(MethodRequired)])
    else if s.cart.None? || |s.cart.value.items| == 0 then Step(s, [Alert(CartEmpty)])
    else Step(s.(processingPayment := true), [StartPurchaseTimer])
  }

  /** The purchase timer firing: the flag is lowered, the modal is closed
      and the cart is cleared on the server. */
  function FinishPurchase(s: CheckoutState): (r: Step)
    ensures !r.state.processingPayment && !r.state.modalVisible
    ensures |r.effects| > 0 && r.effects[|r.effects| - 1] == ClearCart(s.userId)
    ensures r.state.cart == s.cart
  {
    var closed := CloseCheckout(s.(processingPayment := false));
    Step(closed.state, closed.effects + [ClearCart(s.userId)])
  }

  /** A purchase with a saved method, from the click to the timer: the
      processing flag is raised and then lowered, the checkout ends closed,
      and the cart-clearing request is issued exactly once. */
  lemma SavedMethodPurchaseCycle(s: CheckoutState)
    requires s.selectedAddress.Some? && s.selectedMethod.Some?
    requires s.cart.Some? && |s.cart.value.items| > 0
    ensures var started := ConfirmPurchase(s);
      var done := FinishPurchase(started.state);
      && started.state.processingPayment && !done.state.processingPayment
      && CheckoutClosed(done.state) && done.state.cart == s.cart
      && multiset(started.effects + done.effects)[ClearCart(s.userId)] == 1
  {
    var started := ConfirmPurchase(s);
    var closed := CloseCheckout(started.state.(processingPayment := false));
    assert started.effects == [StartPurchaseTimer];
    assert FinishPurchase(started.state).effects == closed.effects + [ClearCart(s.userId)];
    assert ClearCart(s.userId) !in closed.effects;
  }

  /** The answer to the cart-clearing request of the saved-method path: on
      success other views are notified and the user is sent to the profile;
      a failure has no handler, so nothing happens. */
  function PurchaseCartCleared(ok: bool): (effects: seq<Effect>)
    ensures ok ==> effects == [NotifyCartChanged, Alert(PurchaseDone), Navigate("/perfil")]
    ensures !ok ==> effects == []
  {
    if ok then [NotifyCartChanged, Alert(PurchaseDone), Navigate("/perfil")] else []
  }

  // ===== Purchase with a new card =====

  const PaymentFallbackError := "Error al procesar el pago. Intenta de nuevo."

  /** The message of the runtime `TypeError` raised when the payment data
      reads `items[0]` of an empty cart. */
  const EmptyItemsTypeError := "Cannot read properties of undefined (reading 'id_producto')"

  /** The catch branch of `procesarPagoConStripe`. */
  function PaymentFailed(s: CheckoutState, message: Option<string>): (r: CheckoutState)
    ensures !r.processingCard && r.cardError != ""
    ensures TruthyStr(message) ==> r.cardError == message.value
    ensures !TruthyStr(message) ==> r.cardError == PaymentFallbackError
    ensures r.(processingCard := s.processingCard, cardError := s.cardError) == s
  {
    s.(processingCard := false, cardError := StrOr(message, PaymentFallbackError))
  }

  /** The outcomes of the awaited calls of the new-card payment: creating
      the payment intent (its client secret), confirming the card payment
      (the intent id), confirming the order, and clearing the cart. */
  datatype CardPaymentReplies = CardPaymentReplies(intent: Reply, card: Reply, order: Reply, clear: Reply)

  predicate PaymentReady(s: CheckoutState) {
    s.selectedAddress.Some? && s.cart.Some?
  }

  /** `procesarPagoConStripe` run to completion against the given replies. */
  function ProcessCardPayment(s: CheckoutState, replies: CardPaymentReplies): (r: Step)
    ensures !PaymentReady(s) ==> r.state == s && |r.effects| == 1 && r.effects[0].Alert?
    ensures PaymentReady(s) ==> !r.state.processingCard
    ensures PaymentReady(s) ==> (r.state.cardError == "" <==> PaymentStepsSucceed(s, replies) && replies.clear.Ok?)
    ensures PaymentReady(s) && |s.cart.value.items| > 0 ==>
      && |r.effects| > 0
      && r.effects[0] == CreatePaymentIntent(s.cart.value.subtotal, s.userId, s.cart.value.items[0].productId,
                                             s.cart.value.totalProducts)
    ensures PaymentReady(s) && |s.cart.value.items| == 0 ==> r.effects == [] && r.state.cart == s.cart
    ensures PaymentReady(s) && |s.cart.value.items| > 0 ==>
      var cart := s.cart.value;
      var e1 := [CreatePaymentIntent(cart.subtotal, s.userId, cart.items[0].productId, cart.totalProducts)];
      && (replies.intent.Failed? ==> r.effects == e1)
      && (replies.intent.Ok? && replies.card.Failed? ==> r.effects == e1 + [ConfirmCardPayment(replies.intent.value)])
      && (replies.intent.Ok? && replies.card.Ok? ==>
            && |r.effects| >= 3
            && r.effects[..3] == e1 + [ConfirmCardPayment(replies.intent.value),
                                       ConfirmOrder(replies.card.value, s.userId, cart.items[0].productId,
                                                    cart.totalProducts, cart.subtotal, s.selectedAddress.value.id)])
      && (replies.intent.Ok? && replies.card.Ok? && replies.order.Failed? ==> |r.effects| == 3)
  {
    if s.selectedAddress.None? then Step(s, [Alert(AddressRequired)])
    else if s.cart.None? then Step(s, [Alert(CartEmpty)])
    else
      var cart := s.cart.value;
      var s1 := s.(processingCard := true, cardError := "");
      if |cart.items| == 0 then Step(PaymentFailed(s1, Some(EmptyItemsTypeError)), [])
      else
        var productId := cart.items[0].productId;
        var e1 := [CreatePaymentIntent(cart.subtotal, s.userId, productId, cart.totalProducts)];
        match replies.intent
        case Failed(m) => Step(PaymentFailed(s1, m), e1)
        case Ok(secret) =>
          var e2 := e1 + [ConfirmCardPayment(secret)];
          match replies.card
          case Failed(m) => Step(PaymentFailed(s1, m), e2)
          case Ok(intentId) =>
            var e3 := e2 + [ConfirmOrder(intentId, s.userId, productId, cart.totalProducts,
                                         cart.subtotal, s.selectedAddress.value.id)];
            match replies.order
            case Failed(m) => Step(PaymentFailed(s1, m), e3)
            case Ok(_) =>
              var closed := CloseCheckout(s1.(processingCard := false));
              var e4 := e3 + closed.effects + [DestroyCardElement, ClearCart(s.userId)];
              match replies.clear
              case Failed(m) => Step(PaymentFailed(closed.state, m), e4)
              case Ok(_) => Step(closed.state, e4 + [NotifyCartChanged, Alert(PaymentDone), Navigate("/perfil")])
  }

  /** The three payment steps (and the payment data built before them) all
      went through. */
  predicate PaymentStepsSucceed(s: CheckoutState, replies: CardPaymentReplies) {
    && PaymentReady(s)
    && |s.cart.value.items| > 0
    && replies.intent.Ok? && replies.card.Ok? && replies.order.Ok?
  }

  /** A missing address or cart only raises the corresponding alert. */
  lemma CardPaymentGuards(s: CheckoutState, replies: CardPaymentReplies)
    ensures s.selectedAddress.None? ==> ProcessCardPayment(s, replies) == Step(s, [Alert(AddressRequired)])
    ensures s.selectedAddress.Some? && s.cart.None? ==> ProcessCardPayment(s, replies) == Step(s, [Alert(CartEmpty)])
  {
  }

  /** A failure while building the payment data or at the create-intent,
      confirm-card or confirm-order step lowers the processing flag, leaves
      a non-empty error, keeps the modal and the card form as they were, and
      never clears the cart (`CardPaymentErrorMessage` gives the error). */
  lemma CardPaymentFailureKeepsCheckout(s: CheckoutState, replies: CardPaymentReplies)
    requires PaymentReady(s) && !PaymentStepsSucceed(s, replies)
    ensures var r := ProcessCardPayment(s, replies);
      && !r.state.processingCard
      && r.state.cardError != ""
      && r.state.modalVisible == s.modalVisible
      && r.state.showCardForm == s.showCardForm
      && r.state.cart == s.cart
      && ClearCart(s.userId) !in r.effects
      && forall e | e in r.effects :: !e.ClearCart? && !e.Navigate?
  {
  }

  /** The error a failed card payment shows: the message of the first step
      that failed, else the fallback; an empty cart fails on reading its
      first line. */
  lemma CardPaymentErrorMessage(s: CheckoutState, replies: CardPaymentReplies)
    requires PaymentReady(s)
    ensures var err := ProcessCardPayment(s, replies).state.cardError;
      && (|s.cart.value.items| == 0 ==> err == EmptyItemsTypeError)
      && (|s.cart.value.items| > 0 && replies.intent.Failed? ==>
            err == StrOr(replies.intent.message, PaymentFallbackError))
      && (|s.cart.value.items| > 0 && replies.intent.Ok? && replies.card.Failed? ==>
            err == StrOr(replies.card.message, PaymentFallbackError))
      && (|s.cart.value.items| > 0 && replies.intent.Ok? && replies.card.Ok? && replies.order.Failed? ==>
            err == StrOr(replies.order.message, PaymentFallbackError))
  {
  }

  /** The cart-clearing request is issued exactly when the three payment
      steps succeeded, and then only once. */
  lemma CardPaymentClearsCartIffPaid(s: CheckoutState, replies: CardPaymentReplies)
    requires PaymentReady(s)
    ensures var r := ProcessCardPayment(s, replies);
      ClearCart(s.userId) in r.effects <==> PaymentStepsSucceed(s, replies)
  {
  }

  /** After the order is confirmed the modal is closed whatever happens to the
      cart-clearing request, and the user reaches the profile only if that
      request succeeds. */
  lemma CardPaymentSuccess(s: CheckoutState, replies: CardPaymentReplies)
    requires PaymentStepsSucceed(s, replies)
    ensures var r := ProcessCardPayment(s, replies);
      && !r.state.modalVisible && !r.state.processingCard && !r.state.cardReady
      && (replies.clear.Ok? <==> Navigate("/perfil") in r.effects)
      && (replies.clear.Ok? ==> r.state.cardError == "")
      && (replies.clear.Failed? ==> r.state.cardError != "" && Alert(PaymentDone) !in r.effects)
  {
  }

  // ===== Card brand =====

  /** Issuer keywords and the brand tag each selects, in the order they are
      tried. */
  const BrandKeywords: seq<(string, string)> := [
    ("visa", "visa"),
    ("mastercard", "mastercard"),
    ("master card", "mastercard"),
    ("american express", "amex"),
    ("amex", "amex"),
    ("discover", "discover"),
    ("diners", "diners"),
    ("jcb", "jcb"),
    ("unionpay", "unionpay"),
    ("maestro", "maestro")
  ]

  const Generic := "generic"

  /** Keyword `k` of the table is the first one occurring in `lowered`. */
  predicate IsFirstMatch(lowered: string, k: int) {
    && 0 <= k < |BrandKeywords|
    && Contains(lowered, BrandKeywords[k].0)
    && forall j | 0 <= j < k :: !Contains(lowered, BrandKeywords[j].0)
  }

  predicate AnyKeywordIn(lowered: string) {
    exists k | 0 <= k < |BrandKeywords| :: Contains(lowered, BrandKeywords[k].0)
  }

  /** The first keyword at or after `from` that occurs in `lowered`. */
  function FirstKeyword(lowered: string, from: nat): (r: Option<nat>)
    requires from <= |BrandKeywords|
    ensures r.Some? ==> from <= r.value < |BrandKeywords| && Contains(lowered, BrandKeywords[r.value].0)
    ensures r.Some? ==> forall j | from <= j < r.value :: !Contains(lowered, BrandKeywords[j].0)
    ensures r.None? ==> forall j | from <= j < |BrandKeywords| :: !Contains(lowered, BrandKeywords[j].0)
    decreases |BrandKeywords| - from
  {
    if from == |BrandKeywords| then None
    else if Contains(lowered, BrandKeywords[from].0) then Some(from)
    else FirstKeyword(lowered, from + 1)
  }

  /** `detectarMarcaTarjeta`. */
  function DetectBrand(bank: string): (tag: string)
    ensures bank == "" ==> tag == Generic
    ensures tag == Generic || exists k | 0 <= k < |BrandKeywords| :: tag == BrandKeywords[k].1
  {
    if bank == "" then Generic
    else match FirstKeyword(Lower(bank), 0)
      case None => Generic
      case Some(k) => BrandKeywords[k].1
  }

  /** The brand is the tag of the first keyword contained in the lower-cased
      bank name, and `generic` when the bank name is empty or contains none. */
  lemma DetectBrandFirstMatch(bank: string)
    ensures bank != "" && AnyKeywordIn(Lower(bank)) ==>
      exists k :: IsFirstMatch(Lower(bank), k) && DetectBrand(bank) == BrandKeywords[k].1
    ensures bank == "" || !AnyKeywordIn(Lower(bank)) <==> DetectBrand(bank) == Generic
  {
    var lowered := Lower(bank);
    if bank != "" {
      match FirstKeyword(lowered, 0)
      case None =>
      case Some(k) => assert IsFirstMatch(lowered, k);
    }
  }

  /** The brand tags the keyword table can produce. */
  const BrandTags: set<string> := {"visa", "mastercard", "amex", "discover", "diners", "jcb", "unionpay", "maestro"}

  /** The result is one of the brand tags or `generic`. */
  lemma DetectBrandRange(bank: string)
    ensures DetectBrand(bank) in BrandTags + {Generic}
  {
    var tag := DetectBrand(bank);
    if tag != Generic {
      var k :| 0 <= k < |BrandKeywords| && tag == BrandKeywords[k].1;
    }
  }

  /** A string lacking some character of `t` cannot contain `t`. */
  lemma AbsentCharNotContained(s: string, t: string, c: char)
    requires c in t && c !in s
    ensures !Contains(s, t)
  {
  }

  lemma DetectBrandVisaExample()
    ensures DetectBrand("BBVA Visa Gold") == "visa"
  {
    assert OccursAt(Lower("BBVA Visa Gold"), "visa", 5);
  }

  lemma DetectBrandUnknownExample()
    ensures DetectBrand("Banco Desconocido") == Generic
  {
    var unknown := Lower("Banco Desconocido");
    assert unknown == "banco desconocido";
    forall k | 0 <= k < |BrandKeywords| ensures !Contains(unknown, BrandKeywords[k].0) {
      // every keyword has a letter the label lacks
      var c := if k in {0, 5} then 'v' else if k == 6 then 'r' else if k == 7 then 'j' else if k == 8 then 'u' else 'm';
      assert c in BrandKeywords[k].0;
      AbsentCharNotContained(unknown, BrandKeywords[k].0, c);
    }
    DetectBrandFirstMatch("Banco Desconocido");
  }

  const LogoBase := "https://cdn.jsdelivr.net/gh/aaronfagan/svg-credit-card-payment-icons/flat/"

  const Logos: map<string, string> := map[
    "visa" := LogoBase + "visa.svg",
    "mastercard" := LogoBase + "mastercard.svg",
    "amex" := LogoBase + "amex.svg",
    "discover" := LogoBase + "discover.svg",
    "diners" := LogoBase + "diners.svg",
    "jcb" := LogoBase + "jcb.svg",
    "unionpay" := LogoBase + "unionpay.svg",
    "maestro" := LogoBase + "maestro.svg",
    "generic" := LogoBase + "generic.svg"
  ]

  /** The brand of a saved method: detected from its bank name when it has
      one, `generic` otherwise. */
  function MethodBrand(m: PaymentMethod): string {
    if TruthyStr(m.bank) then DetectBrand(m.bank.value) else Generic
  }

  /** `obtenerLogoTarjeta`: the logo of the method's brand, which is always
      an entry of the logo table. */
  function CardLogo(m: PaymentMethod): (url: string)
    ensures url in Logos.Values
    ensures MethodBrand(m) in Logos && url == Logos[MethodBrand(m)]
    ensures !TruthyStr(m.bank) ==> url == Logos[Generic]
  {
    var brand := MethodBrand(m);
    DetectBrandRange(if TruthyStr(m.bank) then m.bank.value else "");
    var entry := if brand in Logos then Logos[brand] else "";
    if entry != "" then entry else Logos[Generic]
  }

  const BrandDisplayNames: map<string, string> := map[
    "visa" := "Visa",
    "mastercard" := "Mastercard",
    "amex" := "American Express",
    "discover" := "Discover",
    "diners" := "Diners Club",
    "jcb" := "JCB",
    "unionpay" := "UnionPay",
    "maestro" := "Maestro"
  ]

  /** `obtenerNombreMarca`: `Tarjeta` without a bank name, the raw bank name for
      an unrecognised brand, and the brand's display name otherwise. */
  function BrandName(m: PaymentMethod): (name: string)
    ensures !TruthyStr(m.bank) ==> name == "Tarjeta"
    ensures TruthyStr(m.bank) && DetectBrand(m.bank.value) == Generic ==> name == m.bank.value
    ensures TruthyStr(m.bank) && DetectBrand(m.bank.value) != Generic ==>
      DetectBrand(m.bank.value) in BrandDisplayNames && name == BrandDisplayNames[DetectBrand(m.bank.value)]
    ensures name != ""
  {
    if !TruthyStr(m.bank) then "Tarjeta"
    else
      var bank := m.bank.value;
      var brand := DetectBrand(bank);
      DetectBrandRange(bank);
      var names := BrandDisplayNames[Generic := StrOr(m.bank, "Tarjeta")];
      var entry := if brand in names then names[brand] else "";
      if entry != "" then entry else bank
  }

  // ===== Product images =====

  /** An absolute URL, a bundled asset or an inline image. */
  predicate Displayable(p: string) {
    StartsWith(p, "http") || StartsWith(p, "assets/") || StartsWith(p, "data:image")
  }

  /** `construirUrlImagen`: absolute, asset and inline images are kept,
      upload paths are prefixed with the API host, anything else (and a
      missing or empty path) becomes the default image. The result is always
      a URL the page can load directly. */
  function ImageUrl(image: Option<string>): (url: string)
    ensures !TruthyStr(image) ==> url == DefaultProductImage
    ensures TruthyStr(image) ==> url == image.value || url == ApiHost + image.value || url == DefaultProductImage
    ensures TruthyStr(image) && Displayable(image.value) ==> url == image.value
    ensures TruthyStr(image) && StartsWith(image.value, "/uploads/") ==> url == ApiHost + image.value
    ensures TruthyStr(image) && !Displayable(image.value) && !StartsWith(image.value, "/uploads/") ==> url == DefaultProductImage
    ensures Displayable(url)
  {
    if !TruthyStr(image) then DefaultProductImage
    else
      var p := image.value;
      assert StartsWith(p, "/uploads/") ==> p[0] == '/';
      if StartsWith(p, "http") then p
      else if StartsWith(p, "assets/") then p
      else if StartsWith(p, "data:image") then p
      else if StartsWith(p, "/uploads/") then ApiHost + p
      else DefaultProductImage
  }

  /** Resolving an already resolved image URL changes nothing. */
  lemma ImageUrlIdempotent(image: Option<string>)
    ensures ImageUrl(Some(ImageUrl(image))) == ImageUrl(image)
  {
  }
}

=== FILE: chat.dfy ===
/** The assistant chat: a message list that opens with a welcome, grows by
    the user's question and then by exactly one answer or one error notice,
    and a `cargando` flag that is set while a question is in flight. */
module ChatAssistant {
  import opened JsValues
  import opened Text

  /** A product the assistant recommends; only its id matters here. */
  datatype ProductRef = ProductRef(id: int)

  /** A chat message. The id and the timestamp come from the clock and are
      left out. */
  datatype Message = Message(text: string, fromUser: bool, tag: string, products: seq<ProductRef>)

  const TextTag := "texto"
  const ProductsTag := "productos"
  const MedicalTag := "consulta_medica"
  const MedicalProductsTag := "productos_medicos"

  const Welcome := "👋 ¡Hola! Soy tu asistente IA de MedTools. Puedo ayudarte a encontrar medicamentos, equipos médicos y darte recomendaciones de salud.\n\n💡 Prueba preguntarme:\n• \"¿Hay oxímetros disponibles?\"\n• \"¿Qué tomar para el dolor de cabeza?\"\n• \"Necesito un termómetro digital\""
  const NoAnswer := "No pude procesar tu solicitud"
  const ErrorNotice := "❌ Lo siento, hubo un error al procesar tu consulta. Por favor intenta de nuevo."

  /** `mensajes`, `mensajeActual`, `cargando`, and the signed-in user's id. */
  datatype ChatState = ChatState(messages: seq<Message>, input: string, loading: bool, userId: int)

  /** `inicializarChat`: appends the welcome message from the assistant. */
  function InitChat(s: ChatState): (r: ChatState)
    ensures r.messages == s.messages + [Message(Welcome, false, TextTag, [])]
    ensures r.(messages := s.messages) == s
  {
    s.(messages := s.messages + [Message(Welcome, false, TextTag, [])])
  }

  /** The question sent to the assistant service for a user. */
  datatype Question = Question(text: string, userId: int)

  datatype Step = Step(state: ChatState, sent: Option<Question>)

  /** `enviarMensaje` up to the service call. A blank input changes nothing
      and sends nothing. Otherwise the input, untrimmed, is appended as a
      user message, the input is cleared, `cargando` is set and the
      question goes out. */
  function Send(s: ChatState): (r: Step)
    ensures IsBlank(s.input) ==> r == Step(s, None)
    ensures !IsBlank(s.input) ==> && r.state.messages == s.messages + [Message(s.input, true, TextTag, [])]
                                  && r.state.input == ""
                                  && r.state.loading
                                  && r.sent == Some(Question(s.input, s.userId))
    ensures r.state.userId == s.userId
  {
    if Trim(s.input) == "" then Step(s, None)
    else
      var asked := s.(messages := s.messages + [Message(s.input, true, TextTag, [])], input := "", loading := true);
      Step(asked, Some(Question(s.input, s.userId)))
  }

  /** `usarSugerencia`: a suggested question is sent as if typed. */
  function UseSuggestion(s: ChatState, suggestion: string): (r: Step)
    ensures !IsBlank(suggestion) ==> r.sent == Some(Question(suggestion, s.userId))
    ensures !IsBlank(suggestion) ==> && r.state.messages == s.messages + [Message(suggestion, true, TextTag, [])]
                                     && r.state.input == ""
                                     && r.state.loading
    ensures IsBlank(suggestion) ==> r.sent.None? && r.state.input == suggestion
  {
    Send(s.(input := suggestion))
  }

  /** What the service answers: `respuesta`, `tipo` and `productos`, each
      possibly missing. */
  datatype Answer = Answer(text: Option<string>, tag: Option<string>, products: Option<seq<ProductRef>>)

  /** The tag the answer is shown with: the service's tag or `'texto'`; a
      non-empty product list always switches to a product view, the medical
      one when the service tagged the answer as a medical consultation. */
  function NormalizeTag(tag: Option<string>, products: Option<seq<ProductRef>>): (r: string)
    ensures products.None? || products.value == [] ==> r == StrOr(tag, TextTag)
    ensures r == MedicalProductsTag <==>
              || (products.Some? && products.value != [] && StrOr(tag, TextTag) == MedicalTag)
              || ((products.None? || products.value == []) && StrOr(tag, TextTag) == MedicalProductsTag)
    ensures products.Some? && products.value != [] ==> r == ProductsTag || r == MedicalProductsTag
    ensures r != ""
  {
    var t := StrOr(tag, TextTag);
    if products.Some? && |products.value| > 0 then
      if t == MedicalTag then MedicalProductsTag else ProductsTag
    else t
  }

  /** The service's reply: an answer or a failed request. */
  datatype Reply = Answered(answer: Answer) | Failed

  /** The assistant message a reply produces. */
  function ReplyMessage(reply: Reply): (m: Message)
    ensures !m.fromUser && m.text != "" && m.tag != ""
    ensures reply.Failed? ==> m == Message(ErrorNotice, false, TextTag, [])
    ensures reply.Answered? && TruthyStr(reply.answer.text) ==> m.text == reply.answer.text.value
    ensures reply.Answered? && !TruthyStr(reply.answer.text) ==> m.text == NoAnswer
    ensures reply.Answered? && reply.answer.products.Some? ==> m.products == reply.answer.products.value
    ensures reply.Answered? && reply.answer.products.None? ==> m.products == []
    ensures reply.Answered? ==> m.tag == NormalizeTag(reply.answer.tag, reply.answer.products)
  {
    match reply
    case Failed => Message(ErrorNotice, false, TextTag, [])
    case Answered(a) =>
      Message(StrOr(a.text, NoAnswer), false, NormalizeTag(a.tag, a.products),
              if a.products.Some? then a.products.value else [])
  }

  /** The `next`/`error` handlers: one assistant message is appended and
      `cargando` ends; nothing else changes. */
  function Replied(s: ChatState, reply: Reply): (r: ChatState)
    ensures r.messages == s.messages + [ReplyMessage(reply)]
    ensures !r.loading
    ensures r.input == s.input && r.userId == s.userId
  {
    s.(messages := s.messages + [ReplyMessage(reply)], loading := false)
  }

  /** A question that goes out and its reply grow the list by exactly two:
      the user's message, then one assistant message; the input is empty
      and `cargando` is off again. */
  lemma SendThenReply(s: ChatState, reply: Reply)
    requires !IsBlank(s.input)
    ensures var done := Replied(Send(s).state, reply);
            && |done.messages| == |s.messages| + 2
            && done.messages[..|s.messages|] == s.messages
            && done.messages[|s.messages|].fromUser && done.messages[|s.messages|].text == s.input
            && !done.messages[|s.messages| + 1].fromUser
            && done.input == ""
            && !done.loading
  {
  }

  /** From index `from` on, every user message is immediately followed by
      an assistant message. */
  predicate EveryQuestionAnswered(ms: seq<Message>, from: nat) {
    forall k | from <= k < |ms| :: ms[k].fromUser ==> k + 1 < |ms| && !ms[k + 1].fromUser
  }

  /** One turn: the user types `text`, sends it and the reply arrives. */
  function Turn(s: ChatState, text: string, reply: Reply): (r: ChatState)
    ensures IsBlank(text) ==> r.messages == s.messages
    ensures !IsBlank(text) ==> r.messages == s.messages + [Message(text, true, TextTag, []), ReplyMessage(reply)]
    ensures !r.loading || (IsBlank(text) && s.loading)
  {
    var sent := Send(s.(input := text));
    if sent.sent.Some? then Replied(sent.state, reply) else sent.state
  }

  /** A sequence of turns, each answered before the next. */
  function Converse(s: ChatState, turns: seq<(string, Reply)>): ChatState
    decreases |turns|
  {
    if |turns| == 0 then s else Converse(Turn(s, turns[0].0, turns[0].1), turns[1..])
  }

  /** When every question gets its reply before the next is sent, messages
      are only ever appended and every question the user asked is followed
      directly by the assistant's message. */
  lemma {:induction false} ConversationAnswered(s: ChatState, turns: seq<(string, Reply)>)
    ensures s.messages <= Converse(s, turns).messages
    ensures EveryQuestionAnswered(Converse(s, turns).messages, |s.messages|)
    decreases |turns|
  {
    if |turns| > 0 {
      var next := Turn(s, turns[0].0, turns[0].1);
      ConversationAnswered(next, turns[1..]);
      var done := Converse(next, turns[1..]).messages;
      assert done == Converse(s, turns).messages;
      if |next.messages| > |s.messages| {
        assert done[|s.messages|] == next.messages[|s.messages|];
        assert done[|s.messages| + 1] == next.messages[|s.messages| + 1];
      }
    }
  }
}

=== FILE: editor.dfy ===
/** The product editor an administrator opens from the product table: the
    form is filled from the product, checked, and sent as a multipart
    `PUT` whose image part is present only when a new image was picked. */
module ProductEditor {
  import opened JsValues
  import opened Text
  import AdminProducts

  /** The product handed to the editor, with every field as JSON gives it. */
  datatype StoredProduct = StoredProduct(
    id: int,
    name: Option<string>,
    description: Option<string>,
    price: Option<real>,
    stock: Option<int>,
    brand: Option<string>,
    condition: Option<string>,
    color: Option<string>,
    size: Option<string>,
    image: Option<string>
  )

  /** The eight bound form fields. */
  datatype EditForm = EditForm(
    name: string,
    description: string,
    price: real,
    stock: int,
    brand: string,
    condition: string,
    color: string,
    size: string
  )

  /** The form before any product is loaded. */
  const BlankForm := EditForm("", "", 0.0, 0, "", "nuevo", "", "")

  const Updated := "Producto actualizado exitosamente"
  const UpdateFailed := "Error al actualizar el producto"

  /** Delay, in milliseconds, between a successful save and closing the editor. */
  const CloseDelay := 1500

  /** A number JavaScript would treat as true: present and non-zero. */
  predicate TruthyReal(a: Option<real>) {
    a.Some? && a.value != 0.0
  }

  function RealOr(a: Option<real>, d: real): real {
    if TruthyReal(a) then a.value else d
  }

  /** `cargarDatos`: each field takes the product's value, or its default
      (`''`, `0`, `'nuevo'`) when that value is falsy. */
  function LoadForm(p: StoredProduct): (f: EditForm)
    ensures f.condition != ""
    ensures TruthyStr(p.name) ==> f.name == p.name.value
    ensures !TruthyStr(p.name) ==> f.name == ""
    ensures f.price == 0.0 <==> !TruthyReal(p.price)
    ensures f.stock == 0 <==> !TruthyInt(p.stock)
    ensures TruthyStr(p.condition) ==> f.condition == p.condition.value
    ensures !TruthyStr(p.condition) ==> f.condition == "nuevo"
    ensures TruthyReal(p.price) ==> f.price == p.price.value
    ensures TruthyInt(p.stock) ==> f.stock == p.stock.value
    ensures TruthyStr(p.description) ==> f.description == p.description.value
    ensures !TruthyStr(p.description) ==> f.description == ""
    ensures TruthyStr(p.brand) ==> f.brand == p.brand.value
    ensures !TruthyStr(p.brand) ==> f.brand == ""
    ensures TruthyStr(p.color) ==> f.color == p.color.value
    ensures !TruthyStr(p.color) ==> f.color == ""
    ensures TruthyStr(p.size) ==> f.size == p.size.value
    ensures !TruthyStr(p.size) ==> f.size == ""
  {
    EditForm(
      StrOr(p.name, ""),
      StrOr(p.description, ""),
      RealOr(p.price, 0.0),
      IntOr(p.stock, 0),
      StrOr(p.brand, ""),
      StrOr(p.condition, "nuevo"),
      StrOr(p.color, ""),
      StrOr(p.size, "")
    )
  }

  /** The product the server holds after saving `f` with image `image`. */
  function StoredFrom(id: int, f: EditForm, image: string): StoredProduct {
    StoredProduct(id, Some(f.name), Some(f.description), Some(f.price), Some(f.stock),
                  Some(f.brand), Some(f.condition), Some(f.color), Some(f.size), Some(image))
  }

  /** Loading a product saved from a form gives that form back: every
      default coincides with the falsy value it replaces, except the
      condition, which must not be empty. */
  lemma LoadSavedForm(id: int, f: EditForm, image: string)
    requires f.condition != ""
    ensures LoadForm(StoredFrom(id, f, image)) == f
  {
  }

  /** Editor state: the product being edited (the `producto` input), the form,
      the current image path, the newly picked file and the status flags. */
  datatype EditorState = EditorState(
    product: Option<StoredProduct>,
    hasCloser: bool,
    form: EditForm,
    currentImage: string,
    newImage: Option<AdminProducts.ImageFile>,
    saving: bool,
    error: string,
    success: string
  )

  /** `ngOnInit`: the form is filled only when a product was handed in. */
  function Init(product: Option<StoredProduct>, hasCloser: bool): (s: EditorState)
    ensures product.Some? ==> s.form == LoadForm(product.value) && s.currentImage == StrOr(product.value.image, "")
    ensures product.None? ==> s.form == BlankForm && s.currentImage == ""
    ensures !s.saving && s.newImage.None? && s.error == "" && s.success == ""
  {
    var s := EditorState(product, hasCloser, BlankForm, "", None, false, "", "");
    match product
    case None => s
    case Some(p) => s.(form := LoadForm(p), currentImage := StrOr(p.image, ""))
  }

  /** `seleccionarImagen`: a picked file replaces the pending one; an empty
      pick keeps it. */
  function SelectImage(s: EditorState, file: Option<AdminProducts.ImageFile>): (r: EditorState)
    ensures r.newImage == (if file.Some? then file else s.newImage)
    ensures r.(newImage := s.newImage) == s
  {
    if file.Some? then s.(newImage := file) else s
  }

  /** `validarFormulario`: `None` for a valid form, else the message of the
      first failing check in the order name, price, stock. */
  function Validate(f: EditForm): (err: Option<string>)
    ensures err.None? <==> !IsBlank(f.name) && f.price > 0.0 && f.stock >= 0
    ensures IsBlank(f.name) ==> err == Some(AdminProducts.NameRequired)
    ensures !IsBlank(f.name) && f.price <= 0.0 ==> err == Some(AdminProducts.PriceNotPositive)
    ensures !IsBlank(f.name) && f.price > 0.0 && f.stock < 0 ==> err == Some(AdminProducts.StockNegative)
  {
    if Trim(f.name) == "" then Some(AdminProducts.NameRequired)
    else if f.price <= 0.0 then Some(AdminProducts.PriceNotPositive)
    else if f.stock < 0 then Some(AdminProducts.StockNegative)
    else None
  }

  /** Editing checks what creating checks, minus the category: on the same
      fields the two validators agree, except that creation also rejects a
      missing category. */
  lemma EditIsCreateWithoutCategory(f: EditForm, categoryId: int)
    ensures AdminProducts.ValidateCreate(AdminProducts.ProductForm(f.name, f.description, f.price, f.stock, categoryId, f.condition))
         == (if Validate(f).Some? then Validate(f)
             else if categoryId == 0 then Some(AdminProducts.CategoryRequired)
             else None)
  {
  }

  /** Whatever the creation form accepts, the editor accepts too once the
      product is opened in it: the editor checks a subset of the same rules. */
  lemma CreatedIsEditable(f: AdminProducts.ProductForm, image: Option<AdminProducts.ImageFile>, brand: string, color: string, size: string)
    requires AdminProducts.CreateProduct(f, image).Submit?
    ensures Validate(EditForm(f.name, f.description, f.price, f.stock, brand, f.condition, color, size)).None?
  {
    EditIsCreateWithoutCategory(EditForm(f.name, f.description, f.price, f.stock, brand, f.condition, color, size), f.categoryId);
  }

  /** One part of the multipart body. Numbers are sent through `toString`,
      which is left abstract: the part keeps the number itself. */
  datatype PartValue = TextPart(text: string) | DecimalPart(decimal: real) | IntegerPart(integer: int) | FilePart(file: AdminProducts.ImageFile)

  /** The multipart field names the update sends. */
  datatype Key = Nombre | Descripcion | Precio | Stock | Marca | Condicion | Color | Talla | Imagen

  /** The field name as it appears on the wire. */
  function KeyName(k: Key): string {
    match k
    case Nombre => "nombre"
    case Descripcion => "descripcion"
    case Precio => "precio"
    case Stock => "stock"
    case Marca => "marca"
    case Condicion => "condicion"
    case Color => "color"
    case Talla => "talla"
    case Imagen => "imagen"
  }

  datatype Part = Part(key: Key, value: PartValue)

  /** The body `guardarCambios` builds: the eight fields in order, then the
      image when a new one was picked. */
  function Payload(f: EditForm, image: Option<AdminProducts.ImageFile>): (parts: seq<Part>)
    ensures |parts| == (if image.Some? then 9 else 8)
    ensures (exists k | 0 <= k < |parts| :: parts[k].value.FilePart?) <==> image.Some?
  {
    var fields := [
      Part(Nombre, TextPart(f.name)),
      Part(Descripcion, TextPart(f.description)),
      Part(Precio, DecimalPart(f.price)),
      Part(Stock, IntegerPart(f.stock)),
      Part(Marca, TextPart(f.brand)),
      Part(Condicion, TextPart(f.condition)),
      Part(Color, TextPart(f.color)),
      Part(Talla, TextPart(f.size))
    ];
    assert forall k | 0 <= k < 8 :: !fields[k].value.FilePart?;
    match image
    case None => fields
    case Some(file) =>
      var parts := fields + [Part(Imagen, FilePart(file))];
      assert parts[8].value.FilePart?;
      parts
  }

  /** The value of the first part named `key`, as the server reads it. */
  function PartNamed(parts: seq<Part>, key: Key): Option<PartValue> {
    if |parts| == 0 then None
    else if parts[0].key == key then Some(parts[0].value)
    else PartNamed(parts[1..], key)
  }

  function TextNamed(parts: seq<Part>, key: Key): Option<string> {
    match PartNamed(parts, key)
    case Some(TextPart(t)) => Some(t)
    case _ => None
  }

  /** Reads a form back from a multipart body, as the server does. */
  function FormOf(parts: seq<Part>): Option<EditForm> {
    var name := TextNamed(parts, Nombre);
    var description := TextNamed(parts, Descripcion);
    var price := PartNamed(parts, Precio);
    var stock := PartNamed(parts, Stock);
    var brand := TextNamed(parts, Marca);
    var condition := TextNamed(parts, Condicion);
    var color := TextNamed(parts, Color);
    var size := TextNamed(parts, Talla);
    if && name.Some? && description.Some? && price.Some? && price.value.DecimalPart?
       && stock.Some? && stock.value.IntegerPart? && brand.Some? && condition.Some?
       && color.Some? && size.Some?
    then Some(EditForm(name.value, description.value, price.value.decimal, stock.value.integer,
                       brand.value, condition.value, color.value, size.value))
    else None
  }

  /** The image part of a multipart body, if any. */
  function ImageOf(parts: seq<Part>): Option<AdminProducts.ImageFile> {
    match PartNamed(parts, Imagen)
    case Some(FilePart(file)) => Some(file)
    case _ => None
  }

  /** The body carries the whole form and exactly the picked image: reading
      it back gives the form and the optional file it was built from. */
  lemma PayloadRoundTrip(f: EditForm, image: Option<AdminProducts.ImageFile>)
    ensures FormOf(Payload(f, image)) == Some(f)
    ensures ImageOf(Payload(f, image)) == image
  {
    var parts := Payload(f, image);
    PayloadNamed(f, image);
    assert TextNamed(parts, Nombre) == Some(f.name);
    assert TextNamed(parts, Descripcion) == Some(f.description);
    assert TextNamed(parts, Marca) == Some(f.brand);
    assert TextNamed(parts, Condicion) == Some(f.condition);
    assert TextNamed(parts, Color) == Some(f.color);
    assert TextNamed(parts, Talla) == Some(f.size);
  }

  /** Each field of the form is found under its own key in the body, and
      the image key holds exactly the picked file. */
  lemma PayloadNamed(f: EditForm, image: Option<AdminProducts.ImageFile>)
    ensures PartNamed(Payload(f, image), Nombre) == Some(TextPart(f.name))
    ensures PartNamed(Payload(f, image), Descripcion) == Some(TextPart(f.description))
    ensures PartNamed(Payload(f, image), Precio) == Some(DecimalPart(f.price))
    ensures PartNamed(Payload(f, image), Stock) == Some(IntegerPart(f.stock))
    ensures PartNamed(Payload(f, image), Marca) == Some(TextPart(f.brand))
    ensures PartNamed(Payload(f, image), Condicion) == Some(TextPart(f.condition))
    ensures PartNamed(Payload(f, image), Color) == Some(TextPart(f.color))
    ensures PartNamed(Payload(f, image), Talla) == Some(TextPart(f.size))
    ensures PartNamed(Payload(f, image), Imagen) == (if image.Some? then Some(FilePart(image.value)) else None)
  {
    var parts := Payload(f, image);
    FirstPartNamed(parts, 0);
    FirstPartNamed(parts, 1);
    FirstPartNamed(parts, 2);
    FirstPartNamed(parts, 3);
    FirstPartNamed(parts, 4);
    FirstPartNamed(parts, 5);
    FirstPartNamed(parts, 6);
    FirstPartNamed(parts, 7);
    if image.Some? {
      FirstPartNamed(parts, 8);
    } else {
      NoPartNamed(parts, Imagen);
    }
  }

  /** A key no part carries is not found. */
  lemma {:induction false} NoPartNamed(parts: seq<Part>, key: Key)
    requires forall k | 0 <= k < |parts| :: parts[k].key != key
    ensures PartNamed(parts, key).None?
  {
    if |parts| > 0 {
      NoPartNamed(parts[1..], key);
    }
  }

  /** The part at index `k` is the one found under its key when no earlier
      part has that key. */
  lemma {:induction false} FirstPartNamed(parts: seq<Part>, k: nat)
    requires k < |parts|
    requires forall j | 0 <= j < k :: parts[j].key != parts[k].key
    ensures PartNamed(parts, parts[k].key) == Some(parts[k].value)
  {
    if k > 0 {
      FirstPartNamed(parts[1..], k - 1);
    }
  }

  /** The update request: `PUT /api/productos/<id_producto>` with the body. */
  datatype UpdateRequest = UpdateRequest(productId: int, parts: seq<Part>)

  datatype Effect = Send(request: UpdateRequest) | CloseAfter(delayMs: nat) | Close

  datatype Step = Step(state: EditorState, effects: seq<Effect>)

  /** `guardarCambios`. An invalid form only sets the error message and
      sends nothing. A valid one sets `guardando`, clears both messages and
      sends the update; without a product the id lookup throws after the
      flags are set, so nothing is sent. */
  function SaveChanges(s: EditorState): (r: Step)
    ensures Validate(s.form).Some? ==> r.effects == [] && r.state == s.(error := Validate(s.form).value)
    ensures Validate(s.form).None? ==> r.state == s.(saving := true, error := "", success := "")
    ensures |r.effects| > 0 <==> Validate(s.form).None? && s.product.Some?
    ensures |r.effects| > 0 ==> r.effects == [Send(UpdateRequest(s.product.value.id, Payload(s.form, s.newImage)))]
  {
    match Validate(s.form)
    case Some(msg) => Step(s.(error := msg), [])
    case None =>
      var busy := s.(saving := true, error := "", success := "");
      match s.product
      case None => Step(busy, [])
      case Some(p) => Step(busy, [Send(UpdateRequest(p.id, Payload(s.form, s.newImage)))])
  }

  /** How the server answered the update; `detail` is `error.error?.detail`. */
  datatype SaveReply = Saved | Failed(detail: Option<string>)

  /** The update's answer: success shows the success message and closes the
      editor after the delay; failure shows the server's detail or a fixed
      message. Either way `guardando` ends. */
  function SaveReplied(s: EditorState, reply: SaveReply): (r: Step)
    ensures !r.state.saving
    ensures r.state.form == s.form && r.state.newImage == s.newImage && r.state.product == s.product
    ensures reply.Saved? ==> r.state.success == Updated && r.state.error == s.error && r.effects == [CloseAfter(CloseDelay)]
    ensures reply.Failed? ==> r.state.error != "" && r.state.success == s.success && r.effects == []
    ensures reply.Failed? && TruthyStr(reply.detail) ==> r.state.error == reply.detail.value
    ensures reply.Failed? && !TruthyStr(reply.detail) ==> r.state.error == UpdateFailed
  {
    match reply
    case Saved => Step(s.(success := Updated, saving := false), [CloseAfter(CloseDelay)])
    case Failed(detail) => Step(s.(error := StrOr(detail, UpdateFailed), saving := false), [])
  }

  /** A save that reaches the server ends with `guardando` false and exactly
      one of the two messages shown: the success message when the server
      accepted the update, an error message when it did not. */
  lemma SaveCycle(s: EditorState, reply: SaveReply)
    requires Validate(s.form).None? && s.product.Some?
    ensures var sent := SaveChanges(s);
            var done := SaveReplied(sent.state, reply);
            && !done.state.saving
            && (done.state.success != "" <==> reply.Saved?)
            && (done.state.error != "" <==> reply.Failed?)
  {
  }

  /** An invalid form never starts a save: nothing is sent and `guardando`
      keeps its value. */
  lemma InvalidFormSendsNothing(s: EditorState)
    requires !(!IsBlank(s.form.name) && s.form.price > 0.0 && s.form.stock >= 0)
    ensures SaveChanges(s).effects == []
    ensures SaveChanges(s).state.saving == s.saving
    ensures SaveChanges(s).state.error != ""
  {
  }

  /** `cancelar`: closes the editor when the host gave a close callback. */
  function Cancel(s: EditorState): (r: Step)
    ensures r.state == s
    ensures r.effects == (if s.hasCloser then [Close] else [])
  {
    Step(s, if s.hasCloser then [Close] else [])
  }
}

=== FILE: jsvalues.dfy ===
/** Values as the components receive them from JSON payloads and form bindings.
    JavaScript treats `undefined`, `null`, `""` and `0` as false; the `||`
    fallbacks of the components are written with the helpers below. */
module JsValues {

  /** A field that may be absent (`undefined` or `null`). */
  datatype Option<+T> = None | Some(value: T)

  /** A string that JavaScript would treat as true: present and non-empty. */
  predicate TruthyStr(a: Option<string>) {
    a.Some? && a.value != ""
  }

  /** A number that JavaScript would treat as true: present and non-zero. */
  predicate TruthyInt(a: Option<int>) {
    a.Some? && a.value != 0
  }

  /** `a || d` for an optional string. */
  function StrOr(a: Option<string>, d: string): string {
    if TruthyStr(a) then a.value else d
  }

  /** `a || d` for an optional number. */
  function IntOr(a: Option<int>, d: int): int {
    if TruthyInt(a) then a.value else d
  }
}

=== FILE: profile.dfy ===
/** The profile page: the signed-in user read from local storage, the user's
    purchases as the back-end lists them, and the helpers that turn stored
    image paths into displayable URLs. */
module Profile {
  import opened JsValues
  import opened Text
  import opened Assets

  // ===== Image URLs =====

  /** A path shown as it is: an absolute URL, a bundled asset or an inline
      image. */
  predicate KeptAsIs(p: string) {
    || StartsWith(p, "http://") || StartsWith(p, "https://")
    || StartsWith(p, "assets/") || StartsWith(p, "data:image")
  }

  /** `obtenerUrlImagen` and `obtenerUrlImagenProducto`, which differ only
      in their placeholder. A missing or blank path gives the placeholder; an
      absolute URL, an asset or an inline image is kept; an uploaded file is
      served from the back-end host; anything else gives the placeholder. */
  function ResolveImage(path: Option<string>, placeholder: string): (url: string)
    ensures path.None? || IsBlank(path.value) ==> url == placeholder
    ensures path.Some? && !IsBlank(path.value) && KeptAsIs(path.value) ==> url == path.value
    ensures path.Some? && !IsBlank(path.value) && !KeptAsIs(path.value) && StartsWith(path.value, "/uploads")
            ==> url == ApiHost + path.value
    ensures path.Some? && !IsBlank(path.value) && !KeptAsIs(path.value) && !StartsWith(path.value, "/uploads")
            ==> url == placeholder
    ensures url == placeholder || (path.Some? && (url == path.value || url == ApiHost + path.value))
    ensures url == placeholder || KeptAsIs(url)
  {
    if path.None? || Trim(path.value) == "" then placeholder
    else
      var p := path.value;
      if StartsWith(p, "http://") || StartsWith(p, "https://") then p
      else if StartsWith(p, "assets/") then p
      else if StartsWith(p, "/uploads") then
        assert StartsWith(ApiHost + p, "http://") by { assert (ApiHost + p)[..7] == ApiHost[..7]; }
        ApiHost + p
      else if StartsWith(p, "data:image") then p
      else placeholder
  }

  /** The user's picture. */
  function ProfileImage(path: Option<string>): (url: string)
    ensures url == DefaultProfileImage || KeptAsIs(url)
    ensures path.None? || IsBlank(path.value) ==> url == DefaultProfileImage
  {
    ResolveImage(path, DefaultProfileImage)
  }

  /** A purchased product's picture. */
  function ProductImage(path: Option<string>): (url: string)
    ensures url == DefaultProductImage || KeptAsIs(url)
    ensures path.None? || IsBlank(path.value) ==> url == DefaultProductImage
  {
    ResolveImage(path, DefaultProductImage)
  }

  /** Resolving an already resolved URL changes nothing, as long as the
      placeholder is itself a bundled asset. */
  lemma ResolveImageIdempotent(path: Option<string>, placeholder: string)
    requires StartsWith(placeholder, "assets/")
    ensures ResolveImage(Some(ResolveImage(path, placeholder)), placeholder) == ResolveImage(path, placeholder)
  {
    var url := ResolveImage(path, placeholder);
    assert url[0] == url[..7][0];
    BlankIffAllWhitespace(url);
  }

  // ===== The signed-in user =====

  /** The user record kept in local storage, as JSON gives it. */
  datatype StoredUser = StoredUser(
    id: Option<int>,
    name: Option<string>,
    firstName: Option<string>,
    username: Option<string>,
    email: Option<string>,
    image: Option<string>
  )

  /** What the page shows of the user. */
  datatype UserView = UserView(id: Option<int>, name: string, email: string, image: string)

  const Anonymous := UserView(None, "Usuario", "", DefaultProfileImage)

  /** `email.split('@')[0]`: everything before the first `@`, or the whole
      address when it has none. */
  function LocalPart(email: string): (r: string)
    ensures r <= email && !Contains(r, "@")
    ensures IndexOf(email, "@").None? ==> r == email
    ensures IndexOf(email, "@").Some? ==> r == email[..IndexOf(email, "@").value]
  {
    var parts := Split(email, "@");
    match IndexOf(email, "@")
    case None =>
      assert |parts| == 1;
      parts[0]
    case Some(i) =>
      SplitFirstPieces(email, "@", i);
      parts[0]
  }

  /** The name fallback chain of `cargarUsuario`: `nombre`, then
      `firstName`, then `username`, then (when there is an email) its local
      part, else `'Usuario'`. */
  function DisplayName(u: StoredUser): (name: string)
    ensures TruthyStr(u.name) ==> name == u.name.value
    ensures !TruthyStr(u.name) && TruthyStr(u.firstName) ==> name == u.firstName.value
    ensures !TruthyStr(u.name) && !TruthyStr(u.firstName) && TruthyStr(u.username) ==> name == u.username.value
    ensures !TruthyStr(u.name) && !TruthyStr(u.firstName) && !TruthyStr(u.username)
            ==> name == (if TruthyStr(u.email) then LocalPart(u.email.value) else "Usuario")
  {
    if TruthyStr(u.name) then u.name.value
    else if TruthyStr(u.firstName) then u.firstName.value
    else if TruthyStr(u.username) then u.username.value
    else if TruthyStr(u.email) then LocalPart(u.email.value)
    else "Usuario"
  }

  /** The fallback chain can end in an empty name: exactly when no name
      field is set and the email starts with `@`, since the email is then
      truthy but its local part is empty. */
  lemma DisplayNameEmptyIff(u: StoredUser)
    ensures DisplayName(u) == "" <==>
              && !TruthyStr(u.name) && !TruthyStr(u.firstName) && !TruthyStr(u.username)
              && TruthyStr(u.email) && u.email.value[0] == '@'
  {
    if !TruthyStr(u.name) && !TruthyStr(u.firstName) && !TruthyStr(u.username) && TruthyStr(u.email) {
      var e := u.email.value;
      if e[0] == '@' {
        assert OccursAt(e, "@", 0);
      } else if IndexOf(e, "@").Some? {
        assert IndexOf(e, "@").value != 0;
      }
    }
  }

  /** `cargarUsuario`: with no stored user, or one that does not parse,
      nothing changes; otherwise the id, the name chain, the email (or `''`)
      and the resolved picture are taken. */
  function LoadUser(current: UserView, stored: Option<StoredUser>): (r: UserView)
    ensures stored.None? ==> r == current
    ensures stored.Some? ==> && r.id == stored.value.id
                             && r.name == DisplayName(stored.value)
                             && r.email == StrOr(stored.value.email, "")
                             && r.image == ProfileImage(stored.value.image)
  {
    match stored
    case None => current
    case Some(u) => UserView(u.id, DisplayName(u), StrOr(u.email, ""), ProfileImage(u.image))
  }

  // ===== Purchases =====

  /** The seller object nested in a purchase. */
  datatype Owner = Owner(name: Option<string>)

  /** A purchase as the back-end lists it, every field possibly missing. */
  datatype RawPurchase = RawPurchase(
    productId: Option<int>,
    id: Option<int>,
    name: Option<string>,
    price: Option<real>,
    image: Option<string>,
    category: Option<string>,
    categoryId: Option<int>,
    seller: Option<string>,
    owner: Option<Owner>,
    status: Option<string>,
    saleDate: Option<string>,
    soldDate: Option<string>,
    available: Option<int>,
    description: Option<string>,
    condition: Option<string>,
    color: Option<string>,
    size: Option<string>,
    brand: Option<string>
  )

  /** A purchase as the page shows it. */
  datatype Purchase = Purchase(
    id: Option<int>,
    productId: Option<int>,
    name: Option<string>,
    price: Option<real>,
    image: string,
    category: Option<string>,
    categoryId: Option<int>,
    seller: string,
    status: Option<string>,
    saleDate: Option<string>,
    available: int,
    description: string,
    condition: string,
    color: string,
    size: string,
    brand: string
  )

  /** `id_producto || id`. */
  function IdOf(p: RawPurchase): Option<int> {
    if TruthyInt(p.productId) then p.productId else p.id
  }

  /** `normalizarProducto`: both ids become `id_producto || id`, the seller
      falls back to the owner's name and then to `'Vendedor'`, the sale date
      to `fecha_vendido`, the stock to `0`, the condition to `'nuevo'`, the
      free-text fields to `''`, and the image is resolved. */
  function Normalize(p: RawPurchase): (r: Purchase)
    ensures r.id == r.productId
    ensures TruthyInt(r.id) <==> TruthyInt(p.productId) || TruthyInt(p.id)
    ensures TruthyInt(p.productId) ==> r.id == p.productId
    ensures !TruthyInt(p.productId) ==> r.id == p.id
    ensures r.seller != "" && r.condition != ""
    ensures TruthyStr(p.seller) ==> r.seller == p.seller.value
    ensures !TruthyStr(p.seller) && p.owner.Some? && TruthyStr(p.owner.value.name) ==> r.seller == p.owner.value.name.value
    ensures !TruthyStr(p.seller) && (p.owner.None? || !TruthyStr(p.owner.value.name)) ==> r.seller == "Vendedor"
    ensures r.image == ProductImage(p.image)
    ensures r.image == DefaultProductImage || KeptAsIs(r.image)
    ensures TruthyStr(p.saleDate) ==> r.saleDate == p.saleDate
    ensures !TruthyStr(p.saleDate) ==> r.saleDate == p.soldDate
    ensures TruthyInt(p.available) ==> r.available == p.available.value
    ensures !TruthyInt(p.available) ==> r.available == 0
    ensures TruthyStr(p.condition) ==> r.condition == p.condition.value
    ensures !TruthyStr(p.condition) ==> r.condition == "nuevo"
    ensures TruthyStr(p.description) ==> r.description == p.description.value
    ensures !TruthyStr(p.description) ==> r.description == ""
    ensures TruthyStr(p.color) ==> r.color == p.color.value
    ensures !TruthyStr(p.color) ==> r.color == ""
    ensures TruthyStr(p.size) ==> r.size == p.size.value
    ensures !TruthyStr(p.size) ==> r.size == ""
    ensures TruthyStr(p.brand) ==> r.brand == p.brand.value
    ensures !TruthyStr(p.brand) ==> r.brand == ""
    ensures r.name == p.name && r.price == p.price && r.status == p.status
    ensures r.category == p.category && r.categoryId == p.categoryId
  {
    var ownerName := if p.owner.Some? then p.owner.value.name else None;
    Purchase(
      IdOf(p),
      IdOf(p),
      p.name,
      p.price,
      ProductImage(p.image),
      p.category,
      p.categoryId,
      if TruthyStr(p.seller) then p.seller.value else StrOr(ownerName, "Vendedor"),
      p.status,
      if TruthyStr(p.saleDate) then p.saleDate else p.soldDate,
      IntOr(p.available, 0),
      StrOr(p.description, ""),
      StrOr(p.condition, "nuevo"),
      StrOr(p.color, ""),
      StrOr(p.size, ""),
      StrOr(p.brand, "")
    )
  }

  /** The record a shown purchase would be listed as. */
  function Listed(q: Purchase): RawPurchase {
    RawPurchase(q.productId, q.id, q.name, q.price, Some(q.image), q.category, q.categoryId,
                Some(q.seller), None, q.status, q.saleDate, q.saleDate, Some(q.available),
                Some(q.description), Some(q.condition), Some(q.color), Some(q.size), Some(q.brand))
  }

  /** Normalising is idempotent: a normalised purchase, listed again, comes
      back unchanged. */
  lemma NormalizeIdempotent(p: RawPurchase)
    ensures Normalize(Listed(Normalize(p))) == Normalize(p)
  {
    ResolveImageIdempotent(p.image, DefaultProductImage);
  }

  /** The page: the user, the purchases and the `cargando` flag. */
  datatype ProfileState = ProfileState(user: UserView, purchases: seq<Purchase>, loading: bool)

  datatype Step = Step(state: ProfileState, request: Option<int>)

  /** `cargarCompras`: without a truthy user id nothing is requested and
      nothing changes; otherwise `cargando` is set and the purchases of
      that user are requested. */
  function LoadPurchases(s: ProfileState): (r: Step)
    ensures r.request.Some? <==> TruthyInt(s.user.id)
    ensures r.request.None? ==> r.state == s
    ensures r.request.Some? ==> r.request.value == s.user.id.value && r.state == s.(loading := true)
  {
    if !TruthyInt(s.user.id) then Step(s, None)
    else Step(s.(loading := true), Some(s.user.id.value))
  }

  /** The purchases reply: each listed purchase normalised, in order, or an
      empty list when the request failed; `cargando` ends. */
  function PurchasesLoaded(s: ProfileState, reply: Option<seq<RawPurchase>>): (r: ProfileState)
    ensures !r.loading && r.user == s.user
    ensures reply.None? ==> r.purchases == []
    ensures reply.Some? ==> |r.purchases| == |reply.value|
    ensures reply.Some? ==> forall k | 0 <= k < |reply.value| :: r.purchases[k] == Normalize(reply.value[k])
  {
    match reply
    case None => s.(purchases := [], loading := false)
    case Some(listed) =>
      s.(purchases := seq(|listed|, k requires 0 <= k < |listed| => Normalize(listed[k])), loading := false)
  }

  /** `cargando` is raised by the request and lowered by either answer; the
      page keeps its user and ends with one shown purchase per listed one,
      or none when the request fails. Without a user id nothing happens. */
  lemma PurchaseLoadCycle(s: ProfileState, reply: Option<seq<RawPurchase>>)
    ensures var started := LoadPurchases(s);
      started.request.None? ==> started.state == s
    ensures var started := LoadPurchases(s);
      var done := PurchasesLoaded(started.state, reply);
      started.request.Some? ==>
        && started.state.loading && !done.loading && done.user == s.user
        && |done.purchases| == (if reply.Some? then |reply.value| else 0)
  {
  }
}

=== FILE: text.dfy ===
/** The JavaScript string operations the components rely on: `trim`,
    `toLowerCase`, `startsWith`, `includes`, `indexOf`, `split` and a
    string-pattern `replace`. */
module Text {
  import opened JsValues

  /** The characters ECMAScript `String.prototype.trim` removes
      (WhiteSpace and LineTerminator code points). */
  predicate IsWhitespace(c: char) {
    || ('\t' <= c <= '\r')
    || c == ' '
    || c == '\U{A0}'
    || c == '\U{1680}'
    || ('\U{2000}' <= c <= '\U{200A}')
    || c == '\U{2028}' || c == '\U{2029}'
    || c == '\U{202F}' || c == '\U{205F}'
    || c == '\U{3000}' || c == '\U{FEFF}'
  }

  predicate AllWhitespace(s: string) {
    forall i | 0 <= i < |s| :: IsWhitespace(s[i])
  }

  /** Drops leading whitespace: the result is the suffix of `s` that starts
      at its first non-whitespace character. */
  function TrimStart(s: string): (r: string)
    ensures |r| <= |s| && r == s[|s| - |r|..]
    ensures AllWhitespace(s[..|s| - |r|])
    ensures |r| > 0 ==> !IsWhitespace(r[0])
  {
    if |s| > 0 && IsWhitespace(s[0]) then TrimStart(s[1..]) else s
  }

  /** Drops trailing whitespace: the result is the prefix of `s` that ends
      at its last non-whitespace character. */
  function TrimEnd(s: string): (r: string)
    ensures |r| <= |s| && r == s[..|r|]
    ensures AllWhitespace(s[|r|..])
    ensures |r| > 0 ==> !IsWhitespace(r[|r| - 1])
  {
    if |s| > 0 && IsWhitespace(s[|s| - 1]) then TrimEnd(s[..|s| - 1]) else s
  }

  /** `s.trim()`: a contiguous slice of `s`, everything cut away is
      whitespace and neither end of the result is whitespace. */
  function Trim(s: string): (r: string)
    ensures exists a, b | 0 <= a <= b <= |s| :: r == s[a..b] && AllWhitespace(s[..a]) && AllWhitespace(s[b..])
    ensures |r| > 0 ==> !IsWhitespace(r[0]) && !IsWhitespace(r[|r| - 1])
  {
    var t := TrimStart(s);
    var r := TrimEnd(t);
    TrimmedSlice(s, t, r);
    r
  }

  /** Cutting whitespace off the front and then off the back leaves a slice
      with only whitespace around it. */
  lemma TrimmedSlice(s: string, t: string, r: string)
    requires |t| <= |s| && t == s[|s| - |t|..] && AllWhitespace(s[..|s| - |t|])
    requires |r| <= |t| && r == t[..|r|] && AllWhitespace(t[|r|..])
    ensures exists a, b | 0 <= a <= b <= |s| :: r == s[a..b] && AllWhitespace(s[..a]) && AllWhitespace(s[b..])
  {
    var a := |s| - |t|;
    var b := a + |r|;
    assert r == s[a..b];
    assert s[b..] == t[|r|..];
  }

  /** `!s.trim()`: the string is empty after trimming. */
  predicate IsBlank(s: string) {
    Trim(s) == ""
  }

  /** A string is blank exactly when every character in it is whitespace. */
  lemma BlankIffAllWhitespace(s: string)
    ensures IsBlank(s) <==> AllWhitespace(s)
  {
    var r := Trim(s);
    var a, b :| 0 <= a <= b <= |s| && r == s[a..b] && AllWhitespace(s[..a]) && AllWhitespace(s[b..]);
    if r == "" {
      forall i | 0 <= i < |s| ensures IsWhitespace(s[i]) {
        if i < a { assert s[..a][i] == s[i]; } else { assert s[b..][i - b] == s[i]; }
      }
    } else {
      assert s[a] == r[0];
    }
  }

  /** Trimming a string that has no whitespace at either end changes nothing. */
  lemma TrimNoop(s: string)
    requires |s| > 0 ==> !IsWhitespace(s[0]) && !IsWhitespace(s[|s| - 1])
    ensures Trim(s) == s
  {
  }

  function LowerChar(c: char): char {
    if 'A' <= c <= 'Z' then (c as int + 32) as char else c
  }

  /** `s.toLowerCase()` restricted to ASCII letters. */
  function Lower(s: string): (r: string)
    ensures |r| == |s|
    ensures forall i | 0 <= i < |s| :: r[i] == LowerChar(s[i])
  {
    seq(|s|, i requires 0 <= i < |s| => LowerChar(s[i]))
  }

  /** `s.startsWith(p)`. */
  predicate StartsWith(s: string, p: string) {
    p <= s
  }

  /** `t` occurs in `s` starting at index `i`. */
  predicate OccursAt(s: string, t: string, i: nat) {
    i + |t| <= |s| && s[i..i + |t|] == t
  }

  /** `s.includes(t)`. */
  predicate Contains(s: string, t: string) {
    exists i | 0 <= i <= |s| :: OccursAt(s, t, i)
  }

  /** The first index at or after `from` where `t` occurs in `s`. */
  function IndexFrom(s: string, t: string, from: nat): (r: Option<nat>)
    requires from <= |s|
    ensures r.Some? ==> from <= r.value && OccursAt(s, t, r.value)
    ensures r.Some? ==> forall j | from <= j < r.value :: !OccursAt(s, t, j)
    ensures r.None? ==> forall j | from <= j <= |s| :: !OccursAt(s, t, j)
    decreases |s| - from
  {
    if OccursAt(s, t, from) then Some(from)
    else if from == |s| then None
    else IndexFrom(s, t, from + 1)
  }

  /** `s.indexOf(t)`, with `None` for JavaScript's `-1`: the leftmost
      occurrence of `t` in `s`, if there is one. */
  function IndexOf(s: string, t: string): (r: Option<nat>)
    ensures r.Some? <==> Contains(s, t)
    ensures r.Some? ==> OccursAt(s, t, r.value) && forall j | 0 <= j < r.value :: !OccursAt(s, t, j)
  {
    IndexFrom(s, t, 0)
  }

  /** An occurrence inside a prefix of `s` is an occurrence in `s`. */
  lemma OccursInPrefix(s: string, t: string, n: nat, j: nat)
    requires n <= |s| && OccursAt(s[..n], t, j)
    ensures OccursAt(s, t, j)
  {
    assert s[..n][j..j + |t|] == s[j..j + |t|];
  }

  /** `parts.join(sep)`. */
  function Join(parts: seq<string>, sep: string): string {
    if |parts| == 0 then ""
    else if |parts| == 1 then parts[0]
    else parts[0] + sep + Join(parts[1..], sep)
  }

  /** `s.split(sep)` for a non-empty separator: the pieces between the
      leftmost non-overlapping occurrences of `sep`, scanning left to right.
      Joining the pieces back with `sep` gives `s`, no piece contains `sep`,
      and there is more than one piece exactly when `s` contains `sep`. */
  function Split(s: string, sep: string): (parts: seq<string>)
    requires |sep| > 0
    ensures |parts| >= 1
    ensures Join(parts, sep) == s
    ensures forall k | 0 <= k < |parts| :: !Contains(parts[k], sep)
    ensures |parts| > 1 <==> Contains(s, sep)
    decreases |s|
  {
    match IndexOf(s, sep)
    case None => [s]
    case Some(i) =>
      var head := s[..i];
      var rest := Split(s[i + |sep|..], sep);
      assert !Contains(head, sep) by {
        forall j | 0 <= j <= |head| ensures !OccursAt(head, sep, j) {
          if OccursAt(head, sep, j) { OccursInPrefix(s, sep, i, j); }
        }
      }
      assert s == head + sep + s[i + |sep|..];
      [head] + rest
  }

  /** The first piece of `s.split(sep)` is everything before the leftmost
      occurrence of `sep`, and the second one starts right after it. */
  lemma SplitFirstPieces(s: string, sep: string, i: nat)
    requires |sep| > 0
    requires IndexOf(s, sep) == Some(i)
    ensures Split(s, sep)[0] == s[..i]
    ensures Split(s, sep)[1] == Split(s[i + |sep|..], sep)[0]
  {
  }

  /** Splitting at the leftmost occurrence of `sep`: the first piece is the
      text before it and the rest is the split of the text after it. */
  lemma SplitAt(s: string, sep: string, i: nat)
    requires |sep| > 0 && OccursAt(s, sep, i)
    requires forall j | 0 <= j < i :: !OccursAt(s, sep, j)
    ensures Split(s, sep) == [s[..i]] + Split(s[i + |sep|..], sep)
  {
    var k := IndexOf(s, sep);
    assert k.Some? by { assert Contains(s, sep); }
  }

  /** A string without the separator splits into itself alone. */
  lemma SplitWhole(s: string, sep: string)
    requires |sep| > 0 && !Contains(s, sep)
    ensures Split(s, sep) == [s]
  {
  }

  /** A string in which the first character of `t` never appears does not
      contain `t`. */
  lemma AbsentHead(s: string, t: string)
    requires |t| > 0 && t[0] !in s
    ensures !Contains(s, t)
  {
    forall j | 0 <= j <= |s| ensures !OccursAt(s, t, j) {
      if j + |t| <= |s| { assert s[j..j + |t|][0] == s[j]; }
    }
  }

  /** Splitting on a character that does not occur in `x`: `x` is the first
      piece and the rest is the split of `y`. */
  lemma SplitOnChar(x: string, c: char, y: string)
    requires c !in x
    ensures Split(x + [c] + y, [c]) == [x] + Split(y, [c])
  {
    var s := x + [c] + y;
    assert s[|x|..|x| + 1] == [c];
    forall j | 0 <= j < |x| ensures !OccursAt(s, [c], j) {
      assert s[j..j + 1][0] == x[j];
    }
    SplitAt(s, [c], |x|);
    assert s[..|x|] == x && s[|x| + 1..] == y;
  }

  /** A character that is neither in the separator nor in any piece is not
      in the joined string. */
  lemma {:induction false} JoinAbsent(ps: seq<string>, sep: string, c: char)
    requires c !in sep
    requires forall k | 0 <= k < |ps| :: c !in ps[k]
    ensures c !in Join(ps, sep)
  {
    if |ps| > 1 {
      JoinAbsent(ps[1..], sep, c);
    }
  }

  /** Split undoes join: pieces free of a one-character separator, joined
      with it, split back into the same pieces. */
  lemma {:induction false} SplitJoinChar(ps: seq<string>, c: char)
    requires |ps| > 0
    requires forall k | 0 <= k < |ps| :: c !in ps[k]
    ensures Split(Join(ps, [c]), [c]) == ps
  {
    if |ps| == 1 {
      AbsentHead(ps[0], [c]);
      SplitWhole(ps[0], [c]);
    } else {
      SplitJoinChar(ps[1..], c);
      SplitOnChar(ps[0], c, Join(ps[1..], [c]));
      assert ps == [ps[0]] + ps[1..];
    }
  }

  /** Trimming keeps exactly the slice `s[a..b]` when everything around it
      is whitespace and the slice neither starts nor ends with whitespace. */
  lemma TrimUnique(s: string, a: nat, b: nat)
    requires a <= b <= |s| && AllWhitespace(s[..a]) && AllWhitespace(s[b..])
    requires a < b ==> !IsWhitespace(s[a]) && !IsWhitespace(s[b - 1])
    ensures Trim(s) == s[a..b]
  {
    var r := Trim(s);
    var a', b' :| 0 <= a' <= b' <= |s| && r == s[a'..b'] && AllWhitespace(s[..a']) && AllWhitespace(s[b'..]);
    WhitespaceOutside(s, a, b);
    WhitespaceOutside(s, a', b');
    assert a' < b' ==> r[0] == s[a'] && r[|r| - 1] == s[b' - 1];
    assert a' < b' ==> !IsWhitespace(s[a']) && !IsWhitespace(s[b' - 1]);
    assert a < b ==> a' <= a && b <= b';
    assert a < b ==> a' == a && b' == b;
    assert a == b ==> a' == b';
  }

  /** Index form of "whitespace before `a` and from `b` on". */
  lemma WhitespaceOutside(s: string, a: nat, b: nat)
    requires a <= b <= |s| && AllWhitespace(s[..a]) && AllWhitespace(s[b..])
    ensures forall i | 0 <= i < |s| && (i < a || b <= i) :: IsWhitespace(s[i])
  {
    forall i | 0 <= i < |s| && (i < a || b <= i) ensures IsWhitespace(s[i]) {
      if i < a { assert s[..a][i] == s[i]; } else { assert s[b..][i - b] == s[i]; }
    }
  }

  /** `s.replace(pat, rep)` with a string pattern: only the leftmost
      occurrence of `pat` is replaced. */
  function ReplaceFirst(s: string, pat: string, rep: string): (r: string)
    ensures !Contains(s, pat) ==> r == s
    ensures Contains(s, pat) ==> exists i | 0 <= i <= |s| - |pat| ::
      && OccursAt(s, pat, i)
      && (forall j | 0 <= j < i :: !OccursAt(s, pat, j))
      && r == s[..i] + rep + s[i + |pat|..]
  {
    match IndexOf(s, pat)
    case None => s
    case Some(i) => s[..i] + rep + s[i + |pat|..]
  }
}
